=== FILE: README.md ===
# Main-content version chain

A Dafny model of the main-content versioning service of the content
backend. Each edit of a content's body creates a new record in the
`main_contents` table. Records of one content are chained through
`prevUuid`/`nextUuid`, numbered by `version`, and exactly one of them is
expected to carry `isLatest`.

The model covers:

- the record and its fields;
- the `isValidUUID` validator on both pointer fields;
- the `content` getter and setter;
- the six service operations:
  - `createMainContent`
  - `updateMainContent`
  - `getMainContentByUuid`
  - `getLatestMainContentByContentId`
  - `getAllVersionsByContentId`
  - `getVersionHistory`

Layout:

- `base.dfy` (`Base`): options, results, the service's errors, JavaScript
  truthiness for `!x` and `x || y`.
- `uuid.dfy` (`UuidFormat`): the uuid validator and an independent
  reading of its regular expression as a list of character-class pieces.
- `body.dfy` (`ContentBody`): JavaScript values and the `content`
  accessors.
- `records.dfy` (`Records`): the record, the table (a map keyed by uuid),
  and the two writes the service performs (insert, retire).
- `service.dfy` (`MainContents`): the six service operations.
- `chain.dfy` (`Chain`): the version-chain invariant, which writes keep
  it and which break it, and what the reads return on a well-formed table.
- `onecontent.dfy` (`OneContent`): one content's rows on their own. The
  invariant holds for the table exactly when it holds for every content.
  The reads of a content see only its rows. Each write changes the rows
  of one content only. So every guarantee of `Chain` holds for a content
  whose own chain is well formed, whatever the other contents hold.
- `eager.dfy` (`Eager`): the reads with the alias of their `include` of
  the parent content as a parameter. It shows that the alias the service
  passes makes every read fail, and that the declared alias gives the
  reads of `MainContents` (see "## Findings").

Modelling choices:

- **Writes return the table.** A write returns the table it leaves behind
  together with its result. A failed write returns the table unchanged.
  This is how the update's transaction rollback and the all-or-nothing
  validation of `create` are represented.
- **Generated uuids are a parameter.** `uuidv4()` becomes the parameter
  `generated`, which must be unused and UUID-shaped.
- **Nondeterministic reads.** A read whose row choice the database leaves
  open (`findOne` with several matches, ties in `ORDER BY version DESC`)
  is a method with a nondeterministic choice. A lemma then shows that on
  a well-formed table the answer is unique.

Behaviour of the code worth knowing (the model follows the code):

- **Caller-supplied uuid.** `createMainContent` does not filter a
  caller-supplied `uuid` equal to the strings "null" or "undefined".
  Only `prevUuid` gets that filter
  (`backend/service/main_contents.service.js:30,34`).
- **Title fallback.** A missing title is not an error by itself. It falls
  back to the parent content's title. The create fails (NOT NULL) only
  when the caller's title is falsy and the content's title is null; an
  empty content title is stored as the empty title
  (`main_contents.service.js:51`).
- **No uniqueness check on create.** `createMainContent` does not check
  whether the content already has a latest record.
  `Chain.CreateOnExistingChainBreaksOneLatest` shows that the
  one-latest-per-content invariant then breaks.
- **Resolved `prevUuid`.** A `prevUuid` that resolves is stored, but the
  predecessor's `nextUuid` is left alone.
  `Chain.CreateWithResolvedPrevBreaksLinks` shows that the pointers then
  disagree.
- **Update errors.** The update reports one error kind for "missing" and
  "not latest". The second check, `!currentVersion.isLatest`
  (`main_contents.service.js:91-93`), can never fire after a lookup that
  filters on `isLatest: true`.
- **Validation of `nextUuid` only.** `instance.update` validates only the
  changed fields. So retiring a record validates `nextUuid` and not the
  record's own uuid. But the successor's `prevUuid` is the current uuid,
  and it is validated on insert. A record created with a caller-chosen
  uuid that is not UUID-shaped therefore can never be updated: the
  transaction always rolls back (`Chain.MalformedUuidCannotBeUpdated`).
  For the same reason, a create whose `prevUuid` names such a record
  fails.
- **History walks need not be ordered.** A create with a resolving
  `prevUuid` stores a version-1 record whose predecessor may also be
  version 1, so versions need not decrease along the pointers. The
  history walk still ends there. The model therefore lets a walk run for
  as long as it does not revisit a record (`MainContents.Ends`), not
  only on ordered tables.
- **Read before the transaction.** The update reads the current record
  before its transaction opens (`main_contents.service.js:82-100`).
  Concurrent updates are not serialized (see "Left out").

## Model

| member | source | states |
|---|---|---|
| UuidFormat.ValidatePointer | backend/models/main_contents.js:70-80 | null or undefined passes; otherwise the value passes exactly when it has the 8-4-4-4-12 shape with version nibble 1-5 and variant nibble 8, 9, a, b; a failure names the field |
| UuidFormat.SameRuleForBothPointers | backend/models/main_contents.js:70-95 | `prevUuid` and `nextUuid` accept exactly the same values |
| UuidFormat.RegexAgrees | backend/models/main_contents.js:75 | the group-by-group definition accepts exactly the strings the anchored pattern matches, piece by piece |
| UuidFormat.CaseInsensitive | backend/models/main_contents.js:90 | because of the `i` flag, a string and its lower-cased form are accepted or rejected together |
| UuidFormat.VersionNibbleRejected | backend/models/main_contents.js:75-78 | a 36-character value whose third group does not start with 1-5 is rejected, and the prevUuid validator fails |
| UuidFormat.VariantNibbleRejected | backend/models/main_contents.js:90-93 | a 36-character value whose fourth group does not start with 8, 9, a, b (either case) is rejected, and the nextUuid validator fails |
| ContentBody.SetContent | backend/models/main_contents.js:36-53 | the value is kept, serialized exactly when its `typeof` is "object" (objects and null), and the getter reads it back when it is truthy and as null otherwise |
| ContentBody.SetContentIsSetterShaped | backend/models/main_contents.js:47-53 | the setter stores JSON text only for an object or null, so every body the service writes can be carried over unchanged by the next update |
| ContentBody.GetContent | backend/models/main_contents.js:36-46 | a falsy raw value reads as null; serialized text reads back as the value it encodes |
| ContentBody.SetThenGet | backend/models/main_contents.js:36-53 | writing a value and reading it gives the value when it is truthy and null when it is falsy |
| ContentBody.GetSetStable | backend/models/main_contents.js:36-53 | reading, writing back and reading again gives the same value (what lets an update carry the body over) |
| ContentBody.GetNull | backend/models/main_contents.js:36-53 | the getter yields null exactly for a falsy raw value or serialized null |
| Records.Insert | backend/models/main_contents.js:22-106 | insertion succeeds exactly when both pointers are null or well-formed and the uuid is unused; on success the table gains exactly that row, on failure it is unchanged |
| Records.Retire | backend/service/main_contents.service.js:104-107 | only `isLatest` (now false) and `nextUuid` of the retired record change; it succeeds exactly when the new `nextUuid` is well-formed; no other row changes |
| MainContents.CreateMainContent | backend/service/main_contents.service.js:13-68 | fails with "content id required" or "content not found" in those cases; succeeds exactly when the content exists, a title is available, a kept prevUuid is well-formed and the uuid is unused; the new row is version 1, latest, has no successor, takes the caller's uuid when truthy, falls back to the content's title and image, and keeps prevUuid exactly when it resolves; on failure nothing is written |
| MainContents.UpdateMainContent | backend/service/main_contents.service.js:77-140 | fails unless the uuid names a latest record; succeeds exactly when it also is well-formed; the successor has version + 1, points back at the old record, is the only new row and is latest; title, image and body fall back to the current record's; the old record is retired to point at the successor; every other row is unchanged; any failure leaves the table as it was |
| MainContents.GetMainContentByUuid | backend/service/main_contents.service.js:147-171 | returns the record with that uuid, and fails exactly when there is none |
| MainContents.GetLatestMainContentByContentId | backend/service/main_contents.service.js:178-205 | returns a latest record of the content, and fails exactly when the content has none |
| MainContents.GetAllVersionsByContentId | backend/service/main_contents.service.js:212-233 | returns every record of the content, each exactly once, in non-increasing version order |
| MainContents.Walk | backend/service/main_contents.service.js:264-287 | starts at the given record; each next entry is the record the followed pointer names; the walk stops at the first falsy or unresolved pointer; no record is listed twice; on an ordered table versions move strictly away from the start |
| MainContents.WalkEndsWithinTable | backend/service/main_contents.service.js:267-287 | a walk that stops after any number of steps stops within as many steps as the table has records, with the same list, so `Ends` excludes exactly the walks that would loop forever |
| MainContents.WalkDistinct | backend/service/main_contents.service.js:267-287 | a walk that stops never visits a record twice |
| MainContents.OrderedWalksEnd | backend/service/main_contents.service.js:267-287 | when versions strictly move along every resolving pointer, every walk stops |
| MainContents.GetVersionHistory | backend/service/main_contents.service.js:241-295 | fails exactly when the start record is missing; otherwise lists the start record, then each record the followed pointer names ('prev' when the direction is omitted or 'prev', `nextUuid` for any other direction), stopping exactly at the first falsy or unresolvable pointer, with no record twice; on an ordered table versions strictly decrease ('prev') or increase (otherwise) |
| Chain.EmptyIsWellFormed | backend/models/main_contents.js:22-114 | the empty table, from which every chain is built, satisfies the invariant |
| Chain.UpdatePreservesWellFormed | backend/service/main_contents.service.js:100-135 | a well-formed table stays well formed (pointers agree, latest is the tail, versions count from 1, one latest per content), whether the update commits or rolls back |
| Chain.UpdateThenRead | backend/service/main_contents.service.js:104-123 | updating a latest record with a well-formed uuid commits; afterwards the new version reads back by uuid, the old record points at it, it is the content's only latest record, and its history is one longer |
| Chain.CreatePreservesWellFormed | backend/service/main_contents.service.js:13-68 | creating keeps a well-formed table well formed when the content has no records yet and no prevUuid resolves |
| Chain.CreateOnExistingChainBreaksOneLatest | backend/service/main_contents.service.js:49-60 | a successful create for a content that already has a latest record leaves two latest records for it |
| Chain.CreateWithResolvedPrevBreaksLinks | backend/service/main_contents.service.js:34-56 | a successful create with a resolving prevUuid leaves a back pointer that the predecessor's next pointer does not match |
| Chain.MalformedUuidCannotBeUpdated | backend/service/main_contents.service.js:104-123 | updating a latest record whose own uuid is not UUID-shaped always fails and leaves the table unchanged |
| Chain.WellFormedIsOrdered | backend/service/main_contents.service.js:267-287 | on a well-formed table versions strictly decrease along prev pointers and increase along next pointers, so the history walk terminates |
| Chain.WalkEndsAtNull | backend/service/main_contents.service.js:268-272 | on a well-formed table the walk stops only at a null pointer, never at a dangling one |
| Chain.WalkBackLength | backend/service/main_contents.service.js:267-287 | walking back from a record of version v yields exactly v records and ends at version 1 |
| Chain.ReachLatest | backend/service/main_contents.service.js:267-287 | from any record the next pointers reach the latest record of its content, whose backward walk passes through the start |
| Chain.LatestIsNewest | backend/service/main_contents.service.js:178-205 | the latest record of a content has the highest version of that content |
| Chain.SomeLatest | backend/service/main_contents.service.js:178-205 | on a well-formed table every content that has records has a latest record, so the latest lookup succeeds |
| Chain.HistoryFromLatest | backend/service/main_contents.service.js:241-295 | the 'prev' history from the latest record lists every record of the content and no other, has as many entries as the latest version, and ends at version 1 with no predecessor |
| Chain.HistoryForwardEndsAtLatest | backend/service/main_contents.service.js:241-295 | the forward history from any record ends at the latest record of its content |
| Chain.HistoryFromFirst | backend/service/main_contents.service.js:241-295 | the 'next' history from the version-1 record lists every record of the content and no other, numbered 1, 2, ..., ends at the latest record, and has as many entries as the latest version |
| Chain.VersionsDistinct | backend/service/main_contents.service.js:117-120 | within one content of a well-formed table no two records share a version |
| Chain.LatestLookupUnique | backend/service/main_contents.service.js:182-193 | on a well-formed table any two answers of the latest lookup for a content are the same record |
| Chain.AllVersionsIsHistory | backend/service/main_contents.service.js:216-225 | on a well-formed table any all-versions listing equals the 'prev' history from the latest record: versions from the latest down to 1, each once |
| OneContent.WellFormedByContent | backend/models/main_contents.js:59-66 | the table is well formed exactly when the rows of every content, taken alone, are |
| OneContent.ChainWalk | backend/service/main_contents.service.js:264-287 | from a record of a content whose chain is well formed, the history walk ends and lists the same records in the whole table as in that content's rows alone |
| OneContent.ChainHistory | backend/service/main_contents.service.js:241-295 | `getVersionHistory` from a record of a well-formed chain gives the same answer as on that content's rows alone |
| OneContent.ChainSomeLatest | backend/service/main_contents.service.js:178-205 | a content with a record and a well-formed chain has a latest record, whatever the other contents hold |
| OneContent.ChainLatestUnique | backend/service/main_contents.service.js:182-193 | on a well-formed chain any two answers of the latest lookup are the same record, whatever the other contents hold |
| OneContent.ChainHistoryFromLatest | backend/service/main_contents.service.js:241-295 | on a well-formed chain the 'prev' history from the latest record lists every record of the content and no other, as many as the latest version, ending at version 1 with no predecessor, whatever the other contents hold |
| OneContent.ChainHistoryFromFirst | backend/service/main_contents.service.js:241-295 | on a well-formed chain the 'next' history from version 1 lists exactly the content's records numbered 1, 2, ..., ends at the latest record and is as long as its version, whatever the other contents hold |
| OneContent.ChainAllVersions | backend/service/main_contents.service.js:212-233 | on a well-formed chain any all-versions listing equals the 'prev' history from the latest record, versions from the latest down to 1, whatever the other contents hold |
| OneContent.UpdateTouchesOneChain | backend/service/main_contents.service.js:100-135 | an update changes the rows of the updated record's content only, and exactly as the same update would on that content's rows alone, with the same answer |
| OneContent.UpdatePreservesChain | backend/service/main_contents.service.js:100-135 | every well-formed chain stays well formed after any update, committed or rolled back, whatever the other contents hold |
| OneContent.ChainUpdateThenRead | backend/service/main_contents.service.js:104-123 | on a well-formed chain, updating its latest record with a well-formed uuid commits; the new version reads back, the old one points at it, it is the content's only latest record, the chain stays well formed and its history is one longer |
| OneContent.CreateTouchesOneChain | backend/service/main_contents.service.js:49-60 | a create leaves the rows of every other content as they were |
| OneContent.CreatePreservesChain | backend/service/main_contents.service.js:13-68 | a create keeps every well-formed chain well formed, provided that when it creates for that very content the content has no records yet and the `prevUuid` does not resolve |
| Eager.Find | backend/models/main_contents.js:7-19 | finds the association with the given alias and target table exactly when one is declared, at its position |
| Eager.FetchByUuid | backend/service/main_contents.service.js:147-171 | succeeds exactly when the include's alias joins the contents and the record exists; an unresolved alias fails before the lookup |
| Eager.FetchLatest | backend/service/main_contents.service.js:178-205 | fails when the include's alias does not join; otherwise returns a latest record of the content, failing exactly when there is none |
| Eager.FetchAllVersions | backend/service/main_contents.service.js:212-233 | fails exactly when the include's alias does not join; otherwise lists every record of the content once, highest version first |
| Eager.FetchHistory | backend/service/main_contents.service.js:241-295 | succeeds exactly when the alias joins and the start record exists, with the walk of `getVersionHistory` |
| Eager.AsWrittenReadsFail | backend/service/main_contents.service.js:153-157 | with the alias `content` the lookup by uuid and the version history fail on every table and every start |
| Eager.AsWrittenLosesRecord | backend/service/main_contents.service.js:151-163 | a record that exists cannot be read by its own uuid with the alias as written, and can with the declared alias |
| Eager.DeclaredAliasReads | backend/models/main_contents.js:15-18 | with the declared alias `parentContent` the reads are exactly the reads of `MainContents` |

## Left out

- The HTTP routes, controllers, authentication, uploads, e-mail and the frontend: they only call the service or are unrelated to the version chain.
- `uuidv4()`: becomes the parameter `generated`, which is unused and UUID-shaped, as random version-4 uuids are assumed to be.
- The `beforeCreate` hook and the uuid column default (`main_contents.js:25,119-124`): the service always passes a truthy uuid, so neither ever fires.
- The column defaults `version: 1` and `isLatest: true` (`main_contents.js:99,104`): both service paths set these fields explicitly (`main_contents.service.js:53-58,118-126`), so the defaults never apply.
- Records.Insert: the foreign key of `userId` on the `users` table (`main_contents.js:107-113`) is not modelled. `userId` is taken to be null or the id of an existing user; the routes pass the authenticated user's id or null. An unknown id would make the database refuse the insert.
- MainContents.CreateMainContent: its success condition leaves out the `userId` foreign key, as for `Records.Insert`; with an unknown user id the source's create throws.
- MainContents.UpdateMainContent: its success condition leaves out the `userId` foreign key, as for `Records.Insert`; with an unknown user id the source's insert fails and the retirement is rolled back.
- The foreign key of `contentId` on the `contents` table is not modelled either: the create checks that the content exists, the update copies the content id of an existing record; deleting rows of `contents` is outside the main-content service.
- Chain.UpdatePreservesWellFormed: states preservation for the whole table only. The per-content statement, which holds whatever the other contents hold, is `OneContent.UpdatePreservesChain`; `OneContent.WellFormedByContent` ties the two together.
- The joined parent content itself: the reads of `MainContents` are modelled as if their `include` used the declared alias `parentContent`, and the joined row is not part of the returned records. With the alias `content` as written, the four reads throw on every input (see "## Findings" and `Eager`).
- All logging: it does not change what the operations return or store.
- Concurrency: two updates of the same record that both pass the lookup before either commits are not represented; the model is sequential.
- The database's column widths and the 32-bit range of `version`, `contentId` and `userId`: integers are unbounded.
- Numbers in JavaScript values are integers; NaN, `-0` and fractions are not modelled, so truthiness of a number is `n != 0`.
- `contentData.contentId` sent as a string is not modelled; the content id is an integer or absent.
- The `createdAt`/`updatedAt` timestamps Sequelize adds.
- Error aggregation: Sequelize reports all failed validators at once; the model reports the first failing check, in the order title, `prevUuid`, `nextUuid`, then the uniqueness of `uuid`.
- The `contents` table row is reduced to its title and image; `content.uuid` in the create's uuid fallback is always undefined, because the `contents` model has no uuid column.
- ContentBody.GetContent: the getter's `JSON.parse` attempt on plain stored text is not modelled; a truthy non-object value reads back as itself, whereas the source would turn text such as "12" or "true" into a number or a boolean.
- MainContents.GetVersionHistory: requires that the walk from the start record stops (`Ends`); where the pointers form a cycle the source's loop never returns, and that is not modelled. No proof here shows that tables built only by the modelled creates and updates are free of such cycles.
- MainContents.Walk: has the same `Ends` requirement, for the same reason.
- MainContents.FollowsPrev: `None` stands for an omitted direction, which defaults to 'prev'. An explicit `null` direction follows `nextUuid` in the source and is not modelled; the only route passes a non-empty path segment.

## Findings

| source | as written | input that shows it | evidently intended | confidence | as-written member | corrected member |
|---|---|---|---|---|---|---|
| backend/service/main_contents.service.js:153-157 | the four reads include the contents under the alias `content` (also at lines 187-191, 219-223, 252-256 and 276-280), but `main_contents` declares its association to the contents as `parentContent` (backend/models/main_contents.js:15-18); Sequelize refuses an include whose alias matches no association, so each read throws "Failed to fetch …" | any call, e.g. `getMainContentByUuid(u)` for a uuid `u` of an existing record | include the contents as `parentContent`, so the reads return the records | high (not executed) | Eager.AsWrittenLosesRecord | Eager.DeclaredAliasReads |

=== FILE: base.dfy ===
/**
 * Shared vocabulary of the main-content model: optional values, the
 * errors the service raises, results, and JavaScript truthiness for the
 * few value kinds the service tests with `!x` or `x || y`.
 */
module Base {

  /**
   * A nullable value. In record fields, pointers and request fields `None`
   * stands for both `null` and `undefined`; for the direction argument of
   * `getVersionHistory` it stands for an omitted argument only.
   */
  datatype Option<+T> = None | Some(value: T)

  /** The field a Sequelize validator complains about. */
  datatype Field = TitleField | PrevUuidField | NextUuidField

  /** Every way a main-content operation can fail. */
  datatype Error =
    | ContentIdRequired          // createMainContent: `!contentData.contentId`
    | ContentNotFound            // createMainContent: no such parent content
    | NotNullViolation(field: Field)
    | InvalidUuidFormat(field: Field)
    | UniqueViolation            // the `uuid` column is unique
    | NotFoundOrNotLatest        // updateMainContent: no latest record with that uuid
    | MainContentNotFound        // lookups by uuid
    | NoLatestForContent         // latest lookup by content id
    | EagerLoadingError          // an `include` names no association the model declares

  datatype Result<+T> = Ok(value: T) | Err(error: Error)

  /** JavaScript truthiness of a nullable string: `null`, `undefined` and `""` are falsy. */
  predicate TruthyText(o: Option<string>) {
    o.Some? && o.value != ""
  }

  /** JavaScript truthiness of a nullable integer id: `null`, `undefined` and `0` are falsy. */
  predicate TruthyId(o: Option<int>) {
    o.Some? && o.value != 0
  }

  /** The JavaScript expression `a || b` on nullable strings. */
  function OrElse(a: Option<string>, b: Option<string>): Option<string> {
    if TruthyText(a) then a else b
  }
}

=== FILE: body.dfy ===
/**
 * The `content` column of a main-content record and its accessors. The
 * setter keeps non-object values as they are and serializes objects (and
 * `null`, whose `typeof` is "object"); the getter returns `null` for an
 * empty or missing raw value and otherwise reads the value back. The
 * serialized text itself is kept symbolic: `Serialized(v)` stands for
 * the JSON text of `v`, which is never empty and parses back to `v`.
 */
module ContentBody {

  /** A JavaScript value as the service receives it in `contentData.content`. */
  datatype JsValue =
    | Undefined
    | Null
    | Bool(b: bool)
    | Num(n: int)
    | Str(text: string)
    | Obj(members: seq<(string, JsValue)>)   // any object or array

  /** What `setDataValue('content', ...)` leaves in the column. */
  datatype Raw =
    | Plain(v: JsValue)          // a non-object value, stored unchanged
    | Serialized(v: JsValue)     // the JSON text of an object or of null

  /** JavaScript truthiness. */
  predicate Truthy(v: JsValue) {
    match v
    case Undefined => false
    case Null => false
    case Bool(b) => b
    case Num(n) => n != 0
    case Str(t) => t != ""
    case Obj(_) => true
  }

  /** `typeof v === 'object'`, which holds for `null` as well. */
  predicate IsObjectType(v: JsValue) {
    v.Null? || v.Obj?
  }

  /**
   * The setter of the `content` attribute: the value is kept, serialized
   * exactly when its `typeof` is "object", and the getter reads it back
   * when it is truthy and as null otherwise.
   */
  function SetContent(v: JsValue): (raw: Raw)
    ensures raw.v == v
    ensures raw.Serialized? <==> IsObjectType(v)
    ensures GetContent(raw) == (if Truthy(v) then v else Null)
  {
    if IsObjectType(v) then Serialized(v) else Plain(v)
  }

  /** Truthiness of the raw column value; JSON text is never empty. */
  predicate RawTruthy(raw: Raw) {
    raw.Serialized? || Truthy(raw.v)
  }

  /**
   * The getter of the `content` attribute. A falsy raw value reads as
   * null; JSON text reads back as the value it encodes; a truthy
   * non-object value reads back as itself (plain text is returned as
   * text, see the README for the parse attempt on it).
   */
  function GetContent(raw: Raw): (v: JsValue)
    ensures !RawTruthy(raw) ==> v == Null
    ensures raw.Serialized? ==> v == raw.v
  {
    if !RawTruthy(raw) then Null
    else raw.v
  }

  /**
   * Writing a value and reading it back gives the value when it is truthy
   * and null when it is falsy (`undefined`, `false`, `0`, `""`, `null`).
   */
  lemma SetThenGet(v: JsValue)
    ensures GetContent(SetContent(v)) == (if Truthy(v) then v else Null)
    ensures Truthy(v) ==> GetContent(SetContent(v)) == v
  {
  }

  /**
   * Raw values the setter can leave behind: JSON text only ever encodes
   * an object or null. (A database NULL reads as `Plain(Null)`.)
   */
  predicate SetterShaped(raw: Raw) {
    raw.Serialized? ==> IsObjectType(raw.v)
  }

  /** Every raw value the setter stores is setter-shaped, so `GetSetStable` applies to it. */
  lemma SetContentIsSetterShaped(v: JsValue)
    ensures SetterShaped(SetContent(v))
  {
  }

  /**
   * Reading, writing back and reading again changes nothing: this is what
   * lets an update carry an unchanged body over to the next version.
   */
  lemma GetSetStable(raw: Raw)
    ensures SetterShaped(raw) ==> GetContent(SetContent(GetContent(raw))) == GetContent(raw)
  {
  }

  /** The getter yields null exactly for falsy raw values and serialized null. */
  lemma GetNull(raw: Raw)
    ensures GetContent(raw) == Null <==> (!RawTruthy(raw) || raw == Serialized(Null))
  {
  }
}

=== FILE: chain.dfy ===
/**
 * The version-chain invariant and what follows from it: appending keeps
 * it, creating keeps it only for a content with no records yet, and on a
 * well-formed table the history walks, the latest lookup and the
 * all-versions listing all describe the same single chain per content.
 */
module Chain {
  import opened Base
  import opened UuidFormat
  import opened Records
  import opened MainContents

  /** `a`'s next pointer names a record that points back, one version up, same content. */
  predicate NextAgrees(s: Store, a: Uuid)
    requires a in s
  {
    s[a].nextUuid.Some? ==>
      var b := s[a].nextUuid.value;
      && b in s
      && s[b].prevUuid == Some(a)
      && s[b].version == s[a].version + 1
      && s[b].contentId == s[a].contentId
  }

  /** `a`'s prev pointer names a record whose next pointer names `a`. */
  predicate PrevAgrees(s: Store, a: Uuid)
    requires a in s
  {
    s[a].prevUuid.Some? ==>
      var p := s[a].prevUuid.value;
      p in s && s[p].nextUuid == Some(a)
  }

  predicate Linked(s: Store) {
    forall a {:trigger NextAgrees(s, a)} {:trigger PrevAgrees(s, a)} :: a in s ==> NextAgrees(s, a) && PrevAgrees(s, a)
  }

  /** The latest record of a chain is exactly the one without a successor. */
  predicate LatestIsTail(s: Store) {
    forall a :: a in s ==> (s[a].isLatest <==> s[a].nextUuid.None?)
  }

  /** Versions start at 1, at the record without a predecessor. */
  predicate Numbered(s: Store) {
    forall a :: a in s ==> s[a].version >= 1 && (s[a].prevUuid.None? <==> s[a].version == 1)
  }

  predicate IsLatestOf(s: Store, a: Uuid, cid: Option<int>) {
    a in s && s[a].isLatest && s[a].contentId == cid
  }

  /** At most one latest record per content. */
  predicate OneLatest(s: Store) {
    forall a, b :: a in s && b in s && IsLatestOf(s, a, s[b].contentId) && IsLatestOf(s, b, s[a].contentId) ==> a == b
  }

  /** Uuids are never empty strings (so every pointer to a record is truthy). */
  predicate NonEmptyKeys(s: Store) {
    forall a :: a in s ==> a != ""
  }

  predicate WellFormed(s: Store) {
    Linked(s) && LatestIsTail(s) && Numbered(s) && OneLatest(s) && NonEmptyKeys(s)
  }

  predicate HasNoRecords(s: Store, cid: Option<int>) {
    forall a :: a in s ==> s[a].contentId != cid
  }

  // ---------------------------------------------------------------------
  // The writes and the invariant
  // ---------------------------------------------------------------------

  /** The empty table, where every chain starts, is well formed. */
  lemma EmptyIsWellFormed()
    ensures WellFormed(map[])
  {
  }

  /**
   * `t` is `s` with the latest record `u` retired in favour of a new
   * record `g` that follows it.
   */
  predicate Appended(s: Store, t: Store, u: Uuid, g: Uuid) {
    && u in s && g !in s && g != "" && s[u].isLatest
    && t.Keys == s.Keys + {g}
    && t[u] == s[u].(isLatest := false, nextUuid := Some(g))
    && (forall k :: k in s && k != u ==> t[k] == s[k])
    && t[g].prevUuid == Some(u) && t[g].nextUuid.None? && t[g].isLatest
    && t[g].version == s[u].version + 1 && t[g].contentId == s[u].contentId
  }

  lemma AppendedLinked(s: Store, t: Store, u: Uuid, g: Uuid)
    requires Linked(s) && LatestIsTail(s) && Appended(s, t, u, g)
    ensures Linked(t)
  {
    assert s[u].nextUuid.None?;
    forall a | a in t
      ensures NextAgrees(t, a) && PrevAgrees(t, a)
    {
      if a == g {
      } else if a == u {
        if s[u].prevUuid.Some? {
          var p := s[u].prevUuid.value;
          assert PrevAgrees(s, u);
          assert p in s && s[p].nextUuid == Some(u);
          assert p != u;
        }
      } else {
        assert a in s && NextAgrees(s, a) && PrevAgrees(s, a);
        if s[a].prevUuid.Some? {
          var p := s[a].prevUuid.value;
          assert p in s && s[p].nextUuid == Some(a);
          assert p != u;
        }
      }
    }
  }

  lemma AppendedOneLatest(s: Store, t: Store, u: Uuid, g: Uuid)
    requires OneLatest(s) && Appended(s, t, u, g)
    ensures OneLatest(t)
  {
    forall k | k in t && t[k].isLatest && k != g
      ensures k in s && t[k] == s[k] && s[k].contentId != s[u].contentId
    {
      assert k in s && k != u;
      assert IsLatestOf(s, k, s[u].contentId) ==> IsLatestOf(s, u, s[k].contentId);
    }
    forall a, b | a in t && b in t && IsLatestOf(t, a, t[b].contentId) && IsLatestOf(t, b, t[a].contentId)
      ensures a == b
    {
      assert a != g && b != g ==> IsLatestOf(s, a, s[b].contentId) && IsLatestOf(s, b, s[a].contentId);
    }
  }

  lemma AppendedRest(s: Store, t: Store, u: Uuid, g: Uuid)
    requires LatestIsTail(s) && Numbered(s) && NonEmptyKeys(s) && Appended(s, t, u, g)
    ensures LatestIsTail(t) && Numbered(t) && NonEmptyKeys(t)
  {
    forall a | a in t
      ensures (t[a].isLatest <==> t[a].nextUuid.None?)
      ensures t[a].version >= 1 && (t[a].prevUuid.None? <==> t[a].version == 1)
    {
      if a != g {
        assert a in s;
      }
    }
  }

  /**
   * Appending a version to a well-formed table leaves it well formed,
   * whether the transaction commits or rolls back.
   */
  lemma UpdatePreservesWellFormed(s: Store, u: Uuid, patch: Patch, userId: Option<int>, generated: Uuid)
    requires WellFormed(s) && FreshFor(s, generated)
    ensures WellFormed(UpdateMainContent(s, u, patch, userId, generated).store)
  {
    var e := UpdateMainContent(s, u, patch, userId, generated);
    if e.result.Ok? {
      assert Appended(s, e.store, u, generated);
      AppendedLinked(s, e.store, u, generated);
      AppendedOneLatest(s, e.store, u, generated);
      AppendedRest(s, e.store, u, generated);
    }
  }

  /** `t` is `s` with one new record `r` that starts a chain of its own. */
  predicate Started(s: Store, t: Store, r: Record) {
    && r.uuid !in s && r.uuid != "" && t == s[r.uuid := r]
    && r.prevUuid.None? && r.nextUuid.None? && r.isLatest && r.version == 1
    && HasNoRecords(s, r.contentId)
  }

  lemma StartedWellFormed(s: Store, t: Store, r: Record)
    requires WellFormed(s) && Started(s, t, r)
    ensures WellFormed(t)
  {
    forall a | a in t
      ensures NextAgrees(t, a) && PrevAgrees(t, a)
    {
      if a != r.uuid {
        assert a in s && NextAgrees(s, a) && PrevAgrees(s, a);
      }
    }
    forall a, b | a in t && b in t && IsLatestOf(t, a, t[b].contentId) && IsLatestOf(t, b, t[a].contentId)
      ensures a == b
    {
      if a != r.uuid && b != r.uuid {
        assert IsLatestOf(s, a, s[b].contentId) && IsLatestOf(s, b, s[a].contentId);
      }
    }
  }

  /**
   * Creating the first version keeps the table well formed, provided the
   * content has no records yet and the caller's `prevUuid` does not
   * resolve; `createMainContent` checks neither.
   */
  lemma CreatePreservesWellFormed(s: Store, contents: Contents, req: CreateRequest, userId: Option<int>, generated: Uuid)
    requires WellFormed(s) && FreshFor(s, generated)
    requires HasNoRecords(s, req.contentId)
    requires !PrevResolves(s, req.prevUuid)
    ensures WellFormed(CreateMainContent(s, contents, req, userId, generated).store)
  {
    var e := CreateMainContent(s, contents, req, userId, generated);
    if e.result.Ok? {
      assert Started(s, e.store, e.result.value);
      StartedWellFormed(s, e.store, e.result.value);
    }
  }

  /**
   * After a committed update of a well-formed table, the new version reads
   * back under its uuid, it is the only latest record of its content, and
   * its backward history has one entry per version, one more than before.
   */
  lemma UpdateThenRead(s: Store, u: Uuid, patch: Patch, userId: Option<int>, generated: Uuid)
    requires WellFormed(s) && FreshFor(s, generated)
    requires u in s && s[u].isLatest && IsValidUuid(u)
    ensures var e := UpdateMainContent(s, u, patch, userId, generated);
      && e.result.Ok?
      && GetMainContentByUuid(e.store, generated) == Ok(e.result.value)
      && GetMainContentByUuid(e.store, u).value.nextUuid == Some(generated)
      && (forall l :: IsLatestOf(e.store, l, s[u].contentId) ==> l == generated)
      && WellFormed(e.store) && Ordered(e.store) && WalksEnd(e.store)
      && |Walk(e.store, generated, true)| == s[u].version + 1
  {
    var e := UpdateMainContent(s, u, patch, userId, generated);
    UpdatePreservesWellFormed(s, u, patch, userId, generated);
    forall l | IsLatestOf(e.store, l, s[u].contentId)
      ensures l == generated
    {
      assert IsLatestOf(e.store, generated, e.store[l].contentId);
    }
    WalkBackLength(e.store, generated);
  }

  /**
   * `createMainContent` does not look for an existing chain: creating a
   * record for a content that already has a latest record leaves two
   * latest records for that content.
   */
  lemma CreateOnExistingChainBreaksOneLatest(
    s: Store, contents: Contents, req: CreateRequest, userId: Option<int>, generated: Uuid, l: Uuid)
    requires FreshFor(s, generated)
    requires IsLatestOf(s, l, req.contentId)
    requires CreateMainContent(s, contents, req, userId, generated).result.Ok?
    ensures !OneLatest(CreateMainContent(s, contents, req, userId, generated).store)
  {
    var e := CreateMainContent(s, contents, req, userId, generated);
    var r := e.result.value;
    assert IsLatestOf(e.store, r.uuid, e.store[l].contentId) && IsLatestOf(e.store, l, e.store[r.uuid].contentId);
    assert r.uuid != l;
  }

  /**
   * A resolvable `prevUuid` makes the new record point back at a record
   * whose next pointer is left untouched, so the links no longer agree.
   */
  lemma CreateWithResolvedPrevBreaksLinks(
    s: Store, contents: Contents, req: CreateRequest, userId: Option<int>, generated: Uuid)
    requires Linked(s) && FreshFor(s, generated)
    requires PrevResolves(s, req.prevUuid)
    requires CreateMainContent(s, contents, req, userId, generated).result.Ok?
    ensures !Linked(CreateMainContent(s, contents, req, userId, generated).store)
  {
    var e := CreateMainContent(s, contents, req, userId, generated);
    var r := e.result.value;
    var p := req.prevUuid.value;
    assert p in s && e.store[p] == s[p];
    assert NextAgrees(s, p);
    assert !PrevAgrees(e.store, r.uuid);
  }

  /**
   * A record whose own uuid does not have the accepted shape (a caller may
   * choose any non-empty uuid at creation) can never receive a successor:
   * the successor's `prevUuid` fails validation and the transaction rolls
   * back.
   */
  lemma MalformedUuidCannotBeUpdated(s: Store, u: Uuid, patch: Patch, userId: Option<int>, generated: Uuid)
    requires FreshFor(s, generated) && u in s && s[u].isLatest && !IsValidUuid(u)
    ensures UpdateMainContent(s, u, patch, userId, generated).result.Err?
    ensures UpdateMainContent(s, u, patch, userId, generated).store == s
  {
  }

  // ---------------------------------------------------------------------
  // Walking a well-formed chain
  // ---------------------------------------------------------------------

  lemma WellFormedIsOrdered(s: Store)
    requires WellFormed(s)
    ensures Ordered(s) && WalksEnd(s)
  {
    forall u, back | u in s
      ensures StepsAway(s, s[u], back)
    {
      if back && Continues(s, s[u], true) {
        var p := s[u].prevUuid.value;
        assert PrevAgrees(s, u) && NextAgrees(s, p);
      } else if !back && Continues(s, s[u], false) {
        assert NextAgrees(s, u);
      }
    }
    OrderedWalksEnd(s);
  }

  /** On a well-formed table the walk stops only at a null pointer. */
  lemma WalkEndsAtNull(s: Store, u: Uuid, back: bool)
    requires WellFormed(s) && u in s
    ensures Ordered(s) && WalksEnd(s)
    ensures var h := Walk(s, u, back); Link(h[|h| - 1], back).None?
  {
    WellFormedIsOrdered(s);
    var h := Walk(s, u, back);
    var last := h[|h| - 1];
    var k := last.uuid;
    assert k in s && s[k] == last;
    assert NextAgrees(s, k) && PrevAgrees(s, k);
  }

  /** Every step of a walk stays within one content. */
  lemma {:induction false} WalkStaysInContent(s: Store, u: Uuid, back: bool, i: nat)
    requires WellFormed(s) && u in s
    ensures Ordered(s) && WalksEnd(s)
    ensures i < |Walk(s, u, back)| ==> Walk(s, u, back)[i].contentId == s[u].contentId
  {
    WellFormedIsOrdered(s);
    var h := Walk(s, u, back);
    if 0 < i < |h| {
      WalkStaysInContent(s, u, back, i - 1);
      var a := h[i - 1].uuid;
      assert a in s && s[a] == h[i - 1];
      assert NextAgrees(s, a) && PrevAgrees(s, a);
      if back {
        var p := s[a].prevUuid.value;
        assert NextAgrees(s, p);
      }
    }
  }

  /**
   * Walking back from a record of version `v` visits versions v, v-1, ...,
   * 1 in turn and ends at the record without a predecessor.
   */
  lemma {:induction false} WalkBackCountsDown(s: Store, u: Uuid, i: nat)
    requires WellFormed(s) && u in s
    ensures Ordered(s) && WalksEnd(s)
    ensures i < |Walk(s, u, true)| ==> Walk(s, u, true)[i].version == s[u].version - i
  {
    WellFormedIsOrdered(s);
    var h := Walk(s, u, true);
    if 0 < i < |h| {
      WalkBackCountsDown(s, u, i - 1);
      var a := h[i - 1].uuid;
      assert a in s && s[a] == h[i - 1];
      assert PrevAgrees(s, a);
      assert NextAgrees(s, s[a].prevUuid.value);
    }
  }

  /** The backward walk from a record of version `v` has exactly `v` entries. */
  lemma WalkBackLength(s: Store, u: Uuid)
    requires WellFormed(s) && u in s
    ensures Ordered(s) && WalksEnd(s)
    ensures |Walk(s, u, true)| == s[u].version
    ensures Walk(s, u, true)[|Walk(s, u, true)| - 1].version == 1
  {
    WellFormedIsOrdered(s);
    var h := Walk(s, u, true);
    WalkEndsAtNull(s, u, true);
    WalkBackCountsDown(s, u, |h| - 1);
    var k := h[|h| - 1].uuid;
    assert k in s && s[k] == h[|h| - 1];
    assert s[k].prevUuid.None?;
    assert s[k].version == 1;
    assert h[|h| - 1].version == s[u].version - (|h| - 1);
  }

  /**
   * From any record, following next pointers reaches the latest record of
   * its content, and walking back from that latest record passes through
   * the starting record.
   */
  lemma {:induction false} ReachLatest(s: Store, a: Uuid) returns (l: Uuid)
    requires WellFormed(s) && a in s
    ensures Ordered(s) && WalksEnd(s)
    ensures IsLatestOf(s, l, s[a].contentId)
    ensures s[a].version <= s[l].version
    ensures s[a] in Walk(s, l, true)
    decreases Ahead(s, s[a].version, false)
  {
    WellFormedIsOrdered(s);
    if s[a].isLatest {
      l := a;
    } else {
      assert NextAgrees(s, a);
      var b := s[a].nextUuid.value;
      assert b in Ahead(s, s[a].version, false) && b !in Ahead(s, s[b].version, false);
      assert Ahead(s, s[b].version, false) <= Ahead(s, s[a].version, false);
      l := ReachLatest(s, b);
      var h := Walk(s, l, true);
      var i :| 0 <= i < |h| && h[i] == s[b];
      assert Continues(s, h[i], true);
      assert h[i + 1] == s[a];
    }
  }

  /** The latest record of a content has the highest version of that content. */
  lemma LatestIsNewest(s: Store, l: Uuid, a: Uuid)
    requires WellFormed(s) && a in s && IsLatestOf(s, l, s[a].contentId)
    ensures s[a].version <= s[l].version
  {
    var l' := ReachLatest(s, a);
    assert IsLatestOf(s, l, s[l'].contentId) && IsLatestOf(s, l', s[l].contentId);
  }

  /** Every content that has a record has a latest record. */
  lemma SomeLatest(s: Store, a: Uuid)
    requires WellFormed(s) && a in s
    ensures exists l :: IsLatestOf(s, l, s[a].contentId)
  {
    var l := ReachLatest(s, a);
  }

  /**
   * `getVersionHistory(latest, 'prev')` on a well-formed table lists
   * exactly the records of the latest record's content, newest first,
   * from its version down to version 1.
   */
  lemma HistoryFromLatest(s: Store, l: Uuid)
    requires WellFormed(s) && l in s && s[l].isLatest
    ensures Ordered(s) && WalksEnd(s)
    ensures var h := Walk(s, l, true);
      && (forall a :: a in s && s[a].contentId == s[l].contentId ==> s[a] in h)
      && (forall i :: 0 <= i < |h| ==> h[i].contentId == s[l].contentId)
      && |h| == s[l].version
      && h[|h| - 1].version == 1 && h[|h| - 1].prevUuid.None?
  {
    WellFormedIsOrdered(s);
    var h := Walk(s, l, true);
    forall a | a in s && s[a].contentId == s[l].contentId
      ensures s[a] in h
    {
      var l' := ReachLatest(s, a);
      assert IsLatestOf(s, l, s[l'].contentId) && IsLatestOf(s, l', s[l].contentId);
    }
    forall i | 0 <= i < |h|
      ensures h[i].contentId == s[l].contentId
    {
      WalkStaysInContent(s, l, true, i);
    }
    WalkBackLength(s, l);
    WalkEndsAtNull(s, l, true);
  }

  /**
   * `getVersionHistory(first, 'next')` from any record of a well-formed
   * table ends at the latest record of its content.
   */
  lemma HistoryForwardEndsAtLatest(s: Store, a: Uuid)
    requires WellFormed(s) && a in s
    ensures Ordered(s) && WalksEnd(s)
    ensures var h := Walk(s, a, false);
      IsLatestOf(s, h[|h| - 1].uuid, s[a].contentId)
  {
    WellFormedIsOrdered(s);
    var h := Walk(s, a, false);
    WalkEndsAtNull(s, a, false);
    WalkStaysInContent(s, a, false, |h| - 1);
    var k := h[|h| - 1].uuid;
    assert k in s && s[k] == h[|h| - 1];
    assert s[k].nextUuid.None?;
    assert s[k].isLatest;
  }

  /** Walking forward from a record of version `v` visits versions v, v+1, ... in turn. */
  lemma {:induction false} WalkForwardCountsUp(s: Store, u: Uuid, i: nat)
    requires WellFormed(s) && u in s
    ensures Ordered(s) && WalksEnd(s)
    ensures i < |Walk(s, u, false)| ==> Walk(s, u, false)[i].version == s[u].version + i
  {
    WellFormedIsOrdered(s);
    var h := Walk(s, u, false);
    if 0 < i < |h| {
      WalkForwardCountsUp(s, u, i - 1);
      var a := h[i - 1].uuid;
      assert a in s && s[a] == h[i - 1];
      assert NextAgrees(s, a);
    }
  }

  /** The forward walk from a version-1 record numbers its entries 1, 2, ... within one content. */
  lemma ForwardNumbering(s: Store, a: Uuid)
    requires WellFormed(s) && a in s && s[a].version == 1
    ensures Ordered(s) && WalksEnd(s)
    ensures var h := Walk(s, a, false);
      forall i :: 0 <= i < |h| ==> h[i].contentId == s[a].contentId && h[i].version == i + 1
  {
    WellFormedIsOrdered(s);
    var h := Walk(s, a, false);
    forall i | 0 <= i < |h|
      ensures h[i].contentId == s[a].contentId && h[i].version == i + 1
    {
      WalkStaysInContent(s, a, false, i);
      WalkForwardCountsUp(s, a, i);
    }
  }

  /**
   * `getVersionHistory(first, 'next')` from the version-1 record of a
   * content on a well-formed table lists exactly the records of that
   * content, oldest first, versions 1, 2, ... up to the latest record's,
   * which it ends at.
   */
  lemma HistoryFromFirst(s: Store, a: Uuid)
    requires WellFormed(s) && a in s && s[a].version == 1
    ensures Ordered(s) && WalksEnd(s)
    ensures var h := Walk(s, a, false);
      && (forall c :: c in s && s[c].contentId == s[a].contentId ==> s[c] in h)
      && (forall i :: 0 <= i < |h| ==> h[i].contentId == s[a].contentId && h[i].version == i + 1)
      && IsLatestOf(s, h[|h| - 1].uuid, s[a].contentId)
      && (forall l :: IsLatestOf(s, l, s[a].contentId) ==> |h| == s[l].version)
  {
    ForwardNumbering(s, a);
    HistoryForwardEndsAtLatest(s, a);
    ForwardLength(s, a);
    ForwardCovers(s, a);
  }

  lemma ForwardLength(s: Store, a: Uuid)
    requires WellFormed(s) && a in s && s[a].version == 1
    ensures Ordered(s) && WalksEnd(s)
    ensures forall l :: IsLatestOf(s, l, s[a].contentId) ==> |Walk(s, a, false)| == s[l].version
  {
    ForwardNumbering(s, a);
    HistoryForwardEndsAtLatest(s, a);
    var h := Walk(s, a, false);
    var last := h[|h| - 1].uuid;
    assert s[last] == h[|h| - 1];
    forall l | IsLatestOf(s, l, s[a].contentId)
      ensures |h| == s[l].version
    {
      assert IsLatestOf(s, last, s[l].contentId) && IsLatestOf(s, l, s[last].contentId);
    }
  }

  lemma ForwardCovers(s: Store, a: Uuid)
    requires WellFormed(s) && a in s && s[a].version == 1
    ensures Ordered(s) && WalksEnd(s)
    ensures forall c :: c in s && s[c].contentId == s[a].contentId ==> s[c] in Walk(s, a, false)
  {
    WellFormedIsOrdered(s);
    forall c | c in s && s[c].contentId == s[a].contentId
      ensures s[c] in Walk(s, a, false)
    {
      ForwardCoversOne(s, a, c);
    }
  }

  lemma ForwardCoversOne(s: Store, a: Uuid, c: Uuid)
    requires WellFormed(s) && a in s && s[a].version == 1
    requires c in s && s[c].contentId == s[a].contentId
    ensures Ordered(s) && WalksEnd(s)
    ensures s[c] in Walk(s, a, false)
  {
    ForwardNumbering(s, a);
    HistoryForwardEndsAtLatest(s, a);
    ForwardLength(s, a);
    var h := Walk(s, a, false);
    var last := h[|h| - 1].uuid;
    assert IsLatestOf(s, last, s[c].contentId);
    LatestIsNewest(s, last, c);
    var v := s[c].version;
    assert 1 <= v <= |h|;
    var k := h[v - 1].uuid;
    assert k in s && s[k] == h[v - 1];
    assert s[k].contentId == s[c].contentId && s[k].version == v;
    VersionsDistinct(s, c, k);
    assert s[c] == h[v - 1];
  }

  /** Within one content of a well-formed table no two records share a version. */
  lemma VersionsDistinct(s: Store, a: Uuid, b: Uuid)
    requires WellFormed(s) && a in s && b in s
    requires s[a].contentId == s[b].contentId && s[a].version == s[b].version
    ensures a == b
  {
    var l := ReachLatest(s, a);
    HistoryFromLatest(s, l);
    var h := Walk(s, l, true);
    var i :| 0 <= i < |h| && h[i] == s[a];
    var j :| 0 <= j < |h| && h[j] == s[b];
    WalkBackCountsDown(s, l, i);
    WalkBackCountsDown(s, l, j);
    assert i == j;
  }

  /** Two latest lookups on a well-formed table can only return the same record. */
  lemma LatestLookupUnique(s: Store, cid: int, r1: Record, r2: Record)
    requires WellFormed(s)
    requires r1.uuid in s && s[r1.uuid] == r1 && r1.contentId == Some(cid) && r1.isLatest
    requires r2.uuid in s && s[r2.uuid] == r2 && r2.contentId == Some(cid) && r2.isLatest
    ensures r1 == r2
  {
    assert IsLatestOf(s, r1.uuid, s[r2.uuid].contentId) && IsLatestOf(s, r2.uuid, s[r1.uuid].contentId);
  }

  predicate StrictlyNewestFirst(x: seq<Record>) {
    forall i, j :: 0 <= i < j < |x| ==> x[j].version < x[i].version
  }

  /** Two strictly newest-first lists holding the same records start alike. */
  lemma SameHead(x: seq<Record>, y: seq<Record>)
    requires StrictlyNewestFirst(x) && StrictlyNewestFirst(y)
    requires |x| > 0 && |y| > 0 && x[0] in y && y[0] in x
    ensures x[0] == y[0]
  {
    var k :| 0 <= k < |y| && y[k] == x[0];
    var m :| 0 <= m < |x| && x[m] == y[0];
    assert x[m].version <= x[0].version;
    assert y[k].version <= y[0].version;
    assert m == 0;
  }

  /** Whatever of `x` lies after a shared head lies after it in `y` as well. */
  lemma TailInTail(x: seq<Record>, y: seq<Record>)
    requires StrictlyNewestFirst(x) && |x| > 0 && |y| > 0 && x[0] == y[0]
    requires forall i :: 0 <= i < |x| ==> x[i] in y
    ensures forall i :: 0 <= i < |x| - 1 ==> x[1..][i] in y[1..]
  {
    forall i | 0 <= i < |x| - 1
      ensures x[1..][i] in y[1..]
    {
      var j :| 0 <= j < |y| && y[j] == x[i + 1];
      assert x[i + 1].version < x[0].version;
      assert j != 0;
      assert y[1..][j - 1] == y[j];
    }
  }

  lemma NewestFirstTail(x: seq<Record>)
    requires StrictlyNewestFirst(x) && |x| > 0
    ensures StrictlyNewestFirst(x[1..])
  {
    forall i, j | 0 <= i < j < |x| - 1
      ensures x[1..][j].version < x[1..][i].version
    {
      assert x[1..][j] == x[j + 1] && x[1..][i] == x[i + 1];
    }
  }

  lemma FirstIsIn(x: seq<Record>, y: seq<Record>)
    requires forall j :: 0 <= j < |y| ==> y[j] in x
    ensures |y| > 0 ==> y[0] in x
  {
  }

  /** Two strictly newest-first lists holding the same records are the same list. */
  lemma {:induction false} SameRecordsSameList(x: seq<Record>, y: seq<Record>)
    requires StrictlyNewestFirst(x) && StrictlyNewestFirst(y)
    requires forall i :: 0 <= i < |x| ==> x[i] in y
    requires forall j :: 0 <= j < |y| ==> y[j] in x
    ensures x == y
    decreases |x|
  {
    if |x| == 0 {
      FirstIsIn(x, y);
    } else {
      HeadsAndTails(x, y);
      SameRecordsSameList(x[1..], y[1..]);
      assert x == [x[0]] + x[1..] && y == [y[0]] + y[1..];
    }
  }

  /** Two nonempty such lists share their head, and their tails are such lists again. */
  lemma HeadsAndTails(x: seq<Record>, y: seq<Record>)
    requires StrictlyNewestFirst(x) && StrictlyNewestFirst(y) && |x| > 0
    requires forall i :: 0 <= i < |x| ==> x[i] in y
    requires forall j :: 0 <= j < |y| ==> y[j] in x
    ensures |y| > 0 && x[0] == y[0]
    ensures StrictlyNewestFirst(x[1..]) && StrictlyNewestFirst(y[1..])
    ensures forall i :: 0 <= i < |x[1..]| ==> x[1..][i] in y[1..]
    ensures forall j :: 0 <= j < |y[1..]| ==> y[1..][j] in x[1..]
  {
    assert x[0] in y;
    assert |y| > 0 && y[0] in x;
    SameHead(x, y);
    TailInTail(x, y);
    TailInTail(y, x);
    NewestFirstTail(x);
    NewestFirstTail(y);
  }

  /**
   * On a well-formed table, any listing that `getAllVersionsByContentId`
   * may return is the backward history from the content's latest record:
   * newest first, every version from the latest down to 1, each once. In
   * particular the listing is the same every time it is asked for.
   */
  lemma AllVersionsIsHistory(s: Store, cid: int, l: Uuid, rows: seq<Record>)
    requires WellFormed(s) && IsLatestOf(s, l, Some(cid))
    requires forall i :: 0 <= i < |rows| ==>
      rows[i].uuid in s && s[rows[i].uuid] == rows[i] && rows[i].contentId == Some(cid)
    requires forall u :: u in s && s[u].contentId == Some(cid) ==> s[u] in rows
    requires forall i, j :: 0 <= i < j < |rows| ==> rows[i].uuid != rows[j].uuid
    requires forall i, j :: 0 <= i < j < |rows| ==> rows[j].version <= rows[i].version
    ensures Ordered(s) && WalksEnd(s)
    ensures rows == Walk(s, l, true)
    ensures |rows| == s[l].version
    ensures forall i :: 0 <= i < |rows| ==> rows[i].version == s[l].version - i
  {
    HistoryFromLatest(s, l);
    var h := Walk(s, l, true);
    forall i, j | 0 <= i < j < |rows|
      ensures rows[j].version < rows[i].version
    {
      if rows[j].version == rows[i].version {
        VersionsDistinct(s, rows[i].uuid, rows[j].uuid);
      }
    }
    forall j | 0 <= j < |h|
      ensures h[j] in rows
    {
      assert h[j].uuid in s && s[h[j].uuid] == h[j];
    }
    SameRecordsSameList(rows, h);
    forall i | 0 <= i < |rows|
      ensures rows[i].version == s[l].version - i
    {
      WalkBackCountsDown(s, l, i);
    }
  }
}

=== FILE: eager.dfy ===
/**
 * The eager loading of the parent content by the four reads. Each read
 * passes `include: [{ model: Contents, as: alias }]`, and Sequelize looks
 * the alias up among the associations `main_contents` declares: `author`
 * (the users) and `parentContent` (the contents). When no association to
 * the contents has that alias, the query is never sent and the read
 * throws. The reads here take the alias as a parameter: the service
 * passes `AsWritten`, and only `Declared` joins.
 */
module Eager {
  import opened Base
  import opened Records
  import opened MainContents

  /** An association of `main_contents`: its alias and the table it joins. */
  datatype Association = Association(alias: string, target: string)

  /** The `belongsTo` associations of `main_contents`, in declaration order. */
  const Associations: seq<Association> :=
    [Association("author", "user"), Association("parentContent", "contents")]

  /** The alias the four reads pass. */
  const AsWritten: string := "content"

  /** The alias of the declared association to the contents. */
  const Declared: string := "parentContent"

  /** The position of the association `alias` to `target` in `assocs`, if any. */
  function Find(assocs: seq<Association>, alias: string, target: string): (o: Option<nat>)
    ensures o.Some? ==> o.value < |assocs| && assocs[o.value] == Association(alias, target)
    ensures o.None? ==> forall i :: 0 <= i < |assocs| ==> assocs[i] != Association(alias, target)
  {
    if assocs == [] then None
    else if assocs[0] == Association(alias, target) then Some(0)
    else
      var rest := Find(assocs[1..], alias, target);
      if rest.Some? then Some(rest.value + 1) else None
  }

  /** Whether an include of the contents under `alias` resolves. */
  predicate Joins(alias: string) {
    Find(Associations, alias, "contents").Some?
  }

  /** `getMainContentByUuid` with its include under `alias`. */
  function FetchByUuid(s: Store, u: Uuid, alias: string): (r: Result<Record>)
    ensures r.Ok? <==> Joins(alias) && u in s
    ensures r.Ok? ==> r.value == s[u]
    ensures r.Err? ==> r.error == (if Joins(alias) then MainContentNotFound else EagerLoadingError)
  {
    if !Joins(alias) then Err(EagerLoadingError) else GetMainContentByUuid(s, u)
  }

  /** `getLatestMainContentByContentId` with its include under `alias`. */
  method FetchLatest(s: Store, cid: int, alias: string) returns (r: Result<Record>)
    ensures !Joins(alias) ==> r == Err(EagerLoadingError)
    ensures r.Ok? ==> r.value.uuid in s && s[r.value.uuid] == r.value
    ensures r.Ok? ==> r.value.contentId == Some(cid) && r.value.isLatest
    ensures Joins(alias) ==>
      (r.Err? <==> forall u :: u in s ==> !(s[u].contentId == Some(cid) && s[u].isLatest))
  {
    if !Joins(alias) {
      r := Err(EagerLoadingError);
    } else {
      r := GetLatestMainContentByContentId(s, cid);
    }
  }

  /** `getAllVersionsByContentId` with its include under `alias`. */
  method FetchAllVersions(s: Store, cid: int, alias: string) returns (r: Result<seq<Record>>)
    ensures r.Err? <==> !Joins(alias)
    ensures r.Err? ==> r.error == EagerLoadingError
    ensures r.Ok? ==> forall i :: 0 <= i < |r.value| ==>
      r.value[i].uuid in s && s[r.value[i].uuid] == r.value[i] && r.value[i].contentId == Some(cid)
    ensures r.Ok? ==> forall u :: u in s && s[u].contentId == Some(cid) ==> s[u] in r.value
    ensures r.Ok? ==> forall i, j :: 0 <= i < j < |r.value| ==> r.value[i].uuid != r.value[j].uuid
    ensures r.Ok? ==> forall i, j :: 0 <= i < j < |r.value| ==> r.value[j].version <= r.value[i].version
  {
    if !Joins(alias) {
      r := Err(EagerLoadingError);
    } else {
      var rows := GetAllVersionsByContentId(s, cid);
      r := Ok(rows);
    }
  }

  /**
   * `getVersionHistory` with its includes under `alias`. The first lookup
   * already throws when the alias does not resolve, so the walk runs only
   * when it does.
   */
  function FetchHistory(s: Store, start: Uuid, direction: Option<string>, alias: string): (r: Result<seq<Record>>)
    requires Joins(alias) && start in s ==> Ends(s, start, FollowsPrev(direction))
    ensures r.Ok? <==> Joins(alias) && start in s
    ensures r.Ok? ==> r.value == Walk(s, start, FollowsPrev(direction))
    ensures r.Err? ==> r.error == (if Joins(alias) then MainContentNotFound else EagerLoadingError)
  {
    if !Joins(alias) then Err(EagerLoadingError) else GetVersionHistory(s, start, direction)
  }

  /** The alias the reads pass names no association to the contents. */
  lemma AsWrittenDoesNotJoin()
    ensures !Joins(AsWritten)
  {
  }

  /** The declared alias joins the contents. */
  lemma DeclaredJoins()
    ensures Joins(Declared)
  {
  }

  /**
   * As written, every read fails whatever the table holds: a lookup by uuid
   * and a version history on any start record, the latest lookup and the
   * all-versions listing (by the contracts of `FetchLatest` and
   * `FetchAllVersions`) on any content id.
   */
  lemma AsWrittenReadsFail(s: Store, u: Uuid, direction: Option<string>)
    ensures FetchByUuid(s, u, AsWritten) == Err(EagerLoadingError)
    ensures FetchHistory(s, u, direction, AsWritten) == Err(EagerLoadingError)
    ensures !Joins(AsWritten)
  {
    AsWrittenDoesNotJoin();
  }

  /**
   * A one-record table on which the reads as written and the reads with
   * the declared alias disagree: the record exists, yet the lookup by its
   * own uuid fails.
   */
  lemma AsWrittenLosesRecord(s: Store, u: Uuid)
    requires u in s
    ensures FetchByUuid(s, u, AsWritten).Err?
    ensures FetchByUuid(s, u, Declared) == Ok(s[u])
  {
    AsWrittenDoesNotJoin();
    DeclaredJoins();
  }

  /**
   * With the declared alias the reads are exactly the model's reads, which
   * the rest of the model states its properties about.
   */
  lemma DeclaredAliasReads(s: Store, u: Uuid, direction: Option<string>)
    requires u in s ==> Ends(s, u, FollowsPrev(direction))
    ensures FetchByUuid(s, u, Declared) == GetMainContentByUuid(s, u)
    ensures FetchHistory(s, u, direction, Declared) == GetVersionHistory(s, u, direction)
    ensures Joins(Declared)
  {
    DeclaredJoins();
  }
}

=== FILE: onecontent.dfy ===
/**
 * One content's chain on its own. The service reads a content through
 * `WHERE contentId = ...` and through the pointers of its records, and
 * each write adds or retires records of a single content. So what it
 * does to a content depends only on that content's rows: a well-formed
 * chain keeps every guarantee of the `Chain` module however malformed the
 * rows of other contents are, and writes to other contents leave it
 * alone.
 */
module OneContent {
  import opened Base
  import opened UuidFormat
  import opened Records
  import opened MainContents
  import opened Chain

  /** The rows of the content `cid`: what `WHERE contentId = cid` selects. */
  function Only(s: Store, cid: Option<int>): (t: Store)
    ensures t.Keys <= s.Keys
    ensures forall u :: u in s ==> (u in t <==> s[u].contentId == cid)
    ensures forall u :: u in t ==> t[u] == s[u]
  {
    map u | u in s && s[u].contentId == cid :: s[u]
  }

  // ---------------------------------------------------------------------
  // The invariant, content by content
  // ---------------------------------------------------------------------

  /** The table is well formed exactly when the chain of every content is. */
  lemma WellFormedByContent(s: Store)
    ensures WellFormed(s) <==> forall cid :: WellFormed(Only(s, cid))
  {
    if WellFormed(s) {
      forall cid
        ensures WellFormed(Only(s, cid))
      {
        PartOfWhole(s, cid);
      }
    }
    if forall cid :: WellFormed(Only(s, cid)) {
      WholeOfParts(s);
    }
  }

  lemma PartOfWhole(s: Store, cid: Option<int>)
    requires WellFormed(s)
    ensures WellFormed(Only(s, cid))
  {
    var t := Only(s, cid);
    forall a | a in t
      ensures NextAgrees(t, a) && PrevAgrees(t, a)
    {
      assert NextAgrees(s, a) && PrevAgrees(s, a);
      if s[a].prevUuid.Some? {
        assert NextAgrees(s, s[a].prevUuid.value);
      }
    }
    forall a, b | a in t && b in t && IsLatestOf(t, a, t[b].contentId) && IsLatestOf(t, b, t[a].contentId)
      ensures a == b
    {
      assert IsLatestOf(s, a, s[b].contentId) && IsLatestOf(s, b, s[a].contentId);
    }
  }

  lemma WholeOfParts(s: Store)
    requires forall cid :: WellFormed(Only(s, cid))
    ensures WellFormed(s)
  {
    forall a | a in s
      ensures NextAgrees(s, a) && PrevAgrees(s, a)
      ensures (s[a].isLatest <==> s[a].nextUuid.None?)
      ensures s[a].version >= 1 && (s[a].prevUuid.None? <==> s[a].version == 1)
      ensures a != ""
    {
      var t := Only(s, s[a].contentId);
      assert WellFormed(t) && a in t;
      assert NextAgrees(t, a) && PrevAgrees(t, a);
    }
    forall a, b | a in s && b in s && IsLatestOf(s, a, s[b].contentId) && IsLatestOf(s, b, s[a].contentId)
      ensures a == b
    {
      var t := Only(s, s[a].contentId);
      assert WellFormed(t) && a in t && b in t;
      assert IsLatestOf(t, a, t[b].contentId) && IsLatestOf(t, b, t[a].contentId);
    }
  }

  // ---------------------------------------------------------------------
  // Reads see only the chain
  // ---------------------------------------------------------------------

  /** Out of a record of a well-formed chain, the walk goes on exactly as it does within the chain. */
  lemma ChainContinues(s: Store, cid: Option<int>, u: Uuid, back: bool)
    requires WellFormed(Only(s, cid)) && u in Only(s, cid)
    ensures Continues(s, s[u], back) <==> Continues(Only(s, cid), s[u], back)
    ensures Continues(s, s[u], back) ==> Link(s[u], back).value in Only(s, cid)
  {
    var t := Only(s, cid);
    assert NextAgrees(t, u) && PrevAgrees(t, u);
  }

  lemma {:induction false} ChainWalkWithin(s: Store, cid: Option<int>, u: Uuid, back: bool, f: nat)
    requires WellFormed(Only(s, cid)) && u in Only(s, cid)
    ensures WalkWithin(s, u, back, f) == WalkWithin(Only(s, cid), u, back, f)
    decreases f
  {
    ChainContinues(s, cid, u, back);
    if Continues(s, s[u], back) && f > 0 {
      ChainWalkWithin(s, cid, Link(s[u], back).value, back, f - 1);
    }
  }

  /**
   * From a record of a well-formed chain the history walk ends, in the
   * whole table and in the chain's rows alike, and lists the same records
   * in both: the other contents' rows never enter it.
   */
  lemma ChainWalk(s: Store, cid: Option<int>, u: Uuid, back: bool)
    requires WellFormed(Only(s, cid)) && u in s && s[u].contentId == cid
    ensures Ends(s, u, back) && Ends(Only(s, cid), u, back)
    ensures Walk(s, u, back) == Walk(Only(s, cid), u, back)
  {
    var t := Only(s, cid);
    WellFormedIsOrdered(t);
    assert Ends(t, u, back);
    ChainWalkWithin(s, cid, u, back, |t|);
    WalkEndsWithinTable(s, u, back, |t|);
  }

  /** `getVersionHistory` from a record of a well-formed chain answers as it would on the chain's rows alone. */
  lemma ChainHistory(s: Store, cid: Option<int>, u: Uuid, direction: Option<string>)
    requires WellFormed(Only(s, cid)) && u in s && s[u].contentId == cid
    ensures Ends(s, u, FollowsPrev(direction)) && Ends(Only(s, cid), u, FollowsPrev(direction))
    ensures GetVersionHistory(s, u, direction) == GetVersionHistory(Only(s, cid), u, direction)
  {
    ChainWalk(s, cid, u, FollowsPrev(direction));
  }

  /** A content with a record and a well-formed chain has a latest record, so the latest lookup succeeds. */
  lemma ChainSomeLatest(s: Store, a: Uuid)
    requires a in s && WellFormed(Only(s, s[a].contentId))
    ensures exists l :: IsLatestOf(s, l, s[a].contentId)
  {
    var t := Only(s, s[a].contentId);
    SomeLatest(t, a);
    var l :| IsLatestOf(t, l, t[a].contentId);
    assert IsLatestOf(s, l, s[a].contentId);
  }

  /** On a well-formed chain any two answers of the latest lookup are the same record. */
  lemma ChainLatestUnique(s: Store, cid: int, r1: Record, r2: Record)
    requires WellFormed(Only(s, Some(cid)))
    requires r1.uuid in s && s[r1.uuid] == r1 && r1.contentId == Some(cid) && r1.isLatest
    requires r2.uuid in s && s[r2.uuid] == r2 && r2.contentId == Some(cid) && r2.isLatest
    ensures r1 == r2
  {
    var t := Only(s, Some(cid));
    LatestLookupUnique(t, cid, r1, r2);
  }

  /**
   * `getVersionHistory(latest, 'prev')` on a well-formed chain lists
   * exactly the records of the content, as many as the latest version,
   * down to version 1, whatever the other contents hold.
   */
  lemma ChainHistoryFromLatest(s: Store, l: Uuid)
    requires l in s && s[l].isLatest && WellFormed(Only(s, s[l].contentId))
    ensures Ends(s, l, true)
    ensures var h := Walk(s, l, true);
      && (forall a :: a in s && s[a].contentId == s[l].contentId ==> s[a] in h)
      && (forall i :: 0 <= i < |h| ==> h[i].contentId == s[l].contentId)
      && |h| == s[l].version
      && h[|h| - 1].version == 1 && h[|h| - 1].prevUuid.None?
  {
    var cid := s[l].contentId;
    var t := Only(s, cid);
    assert l in t && t[l] == s[l];
    var h := LatestHistory(t, l);
    ChainWalk(s, cid, l, true);
    assert Walk(s, l, true) == h;
    CoversContent(s, cid, h);
  }

  /** `HistoryFromLatest` for the chain's rows, named. */
  lemma LatestHistory(t: Store, l: Uuid) returns (h: seq<Record>)
    requires WellFormed(t) && l in t && t[l].isLatest
    ensures Ends(t, l, true) && h == Walk(t, l, true)
    ensures forall a :: a in t && t[a].contentId == t[l].contentId ==> t[a] in h
    ensures forall i :: 0 <= i < |h| ==> h[i].contentId == t[l].contentId
    ensures |h| == t[l].version
    ensures h[|h| - 1].version == 1 && h[|h| - 1].prevUuid.None?
  {
    HistoryFromLatest(t, l);
    h := Walk(t, l, true);
  }

  /** `HistoryFromFirst` for the chain's rows, named. */
  lemma FirstHistory(t: Store, a: Uuid) returns (h: seq<Record>)
    requires WellFormed(t) && a in t && t[a].version == 1
    ensures Ends(t, a, false) && h == Walk(t, a, false)
    ensures forall c :: c in t && t[c].contentId == t[a].contentId ==> t[c] in h
    ensures forall i :: 0 <= i < |h| ==> h[i].contentId == t[a].contentId && h[i].version == i + 1
    ensures IsLatestOf(t, h[|h| - 1].uuid, t[a].contentId)
    ensures forall l :: IsLatestOf(t, l, t[a].contentId) ==> |h| == t[l].version
  {
    HistoryFromFirst(t, a);
    h := Walk(t, a, false);
  }

  /** A list holding every row of the content `cid` holds every record of `cid` in the table. */
  lemma CoversContent(s: Store, cid: Option<int>, h: seq<Record>)
    requires forall a :: a in Only(s, cid) ==> Only(s, cid)[a] in h
    ensures forall a :: a in s && s[a].contentId == cid ==> s[a] in h
  {
    var t := Only(s, cid);
    forall a | a in s && s[a].contentId == cid
      ensures s[a] in h
    {
      assert a in t && t[a] == s[a];
    }
  }

  /**
   * `getVersionHistory(first, 'next')` on a well-formed chain lists the
   * content's records numbered 1, 2, ... and ends at its latest record,
   * whatever the other contents hold.
   */
  lemma ChainHistoryFromFirst(s: Store, a: Uuid)
    requires a in s && s[a].version == 1 && WellFormed(Only(s, s[a].contentId))
    ensures Ends(s, a, false)
    ensures var h := Walk(s, a, false);
      && (forall c :: c in s && s[c].contentId == s[a].contentId ==> s[c] in h)
      && (forall i :: 0 <= i < |h| ==> h[i].contentId == s[a].contentId && h[i].version == i + 1)
      && IsLatestOf(s, h[|h| - 1].uuid, s[a].contentId)
      && (forall l :: IsLatestOf(s, l, s[a].contentId) ==> |h| == s[l].version)
  {
    var cid := s[a].contentId;
    var t := Only(s, cid);
    assert a in t && t[a] == s[a];
    var h := FirstHistory(t, a);
    ChainWalk(s, cid, a, false);
    assert Walk(s, a, false) == h;
    CoversContent(s, cid, h);
    forall l | IsLatestOf(s, l, s[a].contentId)
      ensures |h| == s[l].version
    {
      assert IsLatestOf(t, l, t[a].contentId);
    }
    assert IsLatestOf(t, h[|h| - 1].uuid, t[a].contentId);
  }

  /**
   * On a well-formed chain, any listing `getAllVersionsByContentId` may
   * return is the backward history from the latest record, whatever the
   * other contents hold.
   */
  lemma ChainAllVersions(s: Store, cid: int, l: Uuid, rows: seq<Record>)
    requires WellFormed(Only(s, Some(cid))) && IsLatestOf(s, l, Some(cid))
    requires forall i :: 0 <= i < |rows| ==>
      rows[i].uuid in s && s[rows[i].uuid] == rows[i] && rows[i].contentId == Some(cid)
    requires forall u :: u in s && s[u].contentId == Some(cid) ==> s[u] in rows
    requires forall i, j :: 0 <= i < j < |rows| ==> rows[i].uuid != rows[j].uuid
    requires forall i, j :: 0 <= i < j < |rows| ==> rows[j].version <= rows[i].version
    ensures Ends(s, l, true)
    ensures rows == Walk(s, l, true)
    ensures |rows| == s[l].version
    ensures forall i :: 0 <= i < |rows| ==> rows[i].version == s[l].version - i
  {
    var t := Only(s, Some(cid));
    forall i | 0 <= i < |rows|
      ensures rows[i].uuid in t && t[rows[i].uuid] == rows[i]
    {
    }
    forall u | u in t && t[u].contentId == Some(cid)
      ensures t[u] in rows
    {
      assert u in s && s[u].contentId == Some(cid);
    }
    AllVersionsIsHistory(t, cid, l, rows);
    ChainWalk(s, Some(cid), l, true);
  }

  // ---------------------------------------------------------------------
  // Writes touch one chain
  // ---------------------------------------------------------------------

  /**
   * An update touches the chain of the updated record only: that chain
   * becomes what the same update makes of the chain's rows alone, with
   * the same answer, and every other content's rows stay as they were.
   */
  lemma UpdateTouchesOneChain(s: Store, cid: Option<int>, u: Uuid, patch: Patch, userId: Option<int>, generated: Uuid)
    requires FreshFor(s, generated)
    ensures FreshFor(Only(s, cid), generated)
    ensures var e := UpdateMainContent(s, u, patch, userId, generated);
      u in s && s[u].contentId == cid ==>
        var e' := UpdateMainContent(Only(s, cid), u, patch, userId, generated);
        e'.result == e.result && e'.store == Only(e.store, cid)
    ensures var e := UpdateMainContent(s, u, patch, userId, generated);
      !(u in s && s[u].contentId == cid) ==> Only(e.store, cid) == Only(s, cid)
  {
    if u in s && s[u].contentId == cid {
      UpdateOwnChain(s, cid, u, patch, userId, generated);
    } else {
      UpdateOtherChain(s, cid, u, patch, userId, generated);
    }
  }

  lemma UpdateOwnChain(s: Store, cid: Option<int>, u: Uuid, patch: Patch, userId: Option<int>, generated: Uuid)
    requires FreshFor(s, generated) && u in s && s[u].contentId == cid
    ensures FreshFor(Only(s, cid), generated)
    ensures var e := UpdateMainContent(s, u, patch, userId, generated);
      var e' := UpdateMainContent(Only(s, cid), u, patch, userId, generated);
      e'.result == e.result && e'.store == Only(e.store, cid)
  {
    var t := Only(s, cid);
    assert u in t && t[u] == s[u];
    var e := UpdateMainContent(s, u, patch, userId, generated);
    var e' := UpdateMainContent(t, u, patch, userId, generated);
    if e.result.Ok? {
      var retired := e.store[u];
      var r := e.result.value;
      assert e'.store == t[u := retired][generated := r];
      var s1: Store := s[u := retired];
      OnlyAfterWrite(s, retired, cid);
      OnlyAfterWrite(s1, r, cid);
    }
  }

  lemma UpdateOtherChain(s: Store, cid: Option<int>, u: Uuid, patch: Patch, userId: Option<int>, generated: Uuid)
    requires FreshFor(s, generated) && !(u in s && s[u].contentId == cid)
    ensures FreshFor(Only(s, cid), generated)
    ensures Only(UpdateMainContent(s, u, patch, userId, generated).store, cid) == Only(s, cid)
  {
    var e := UpdateMainContent(s, u, patch, userId, generated);
    if e.result.Ok? {
      var retired := e.store[u];
      var r := e.result.value;
      var s1: Store := s[u := retired];
      OnlyAfterOtherWrite(s, retired, cid);
      OnlyAfterOtherWrite(s1, r, cid);
    }
  }

  /** Writing a row of the content `cid` writes the same row into that content's rows. */
  lemma OnlyAfterWrite(s: Store, rec: Record, cid: Option<int>)
    requires rec.contentId == cid
    ensures Only(s[rec.uuid := rec], cid) == Only(s, cid)[rec.uuid := rec]
  {
    var a := Only(s[rec.uuid := rec], cid);
    var b := Only(s, cid)[rec.uuid := rec];
    assert a.Keys == b.Keys;
  }

  /** Writing a row of another content, over nothing of `cid`, leaves the rows of `cid` as they were. */
  lemma OnlyAfterOtherWrite(s: Store, rec: Record, cid: Option<int>)
    requires rec.contentId != cid && (rec.uuid in s ==> s[rec.uuid].contentId != cid)
    ensures Only(s[rec.uuid := rec], cid) == Only(s, cid)
  {
    var a := Only(s[rec.uuid := rec], cid);
    assert a.Keys == Only(s, cid).Keys;
  }

  /**
   * An update keeps every well-formed chain well formed, whatever the rows
   * of other contents are and whichever record it updates.
   */
  lemma UpdatePreservesChain(s: Store, cid: Option<int>, u: Uuid, patch: Patch, userId: Option<int>, generated: Uuid)
    requires WellFormed(Only(s, cid)) && FreshFor(s, generated)
    ensures WellFormed(Only(UpdateMainContent(s, u, patch, userId, generated).store, cid))
  {
    UpdateTouchesOneChain(s, cid, u, patch, userId, generated);
    if u in s && s[u].contentId == cid {
      UpdatePreservesWellFormed(Only(s, cid), u, patch, userId, generated);
    }
  }

  /**
   * After a committed update of a record of a well-formed chain, the new
   * version reads back, the old one points at it, it is the content's only
   * latest record, the chain is still well formed and its backward
   * history is one longer, whatever the other contents hold.
   */
  lemma ChainUpdateThenRead(s: Store, u: Uuid, patch: Patch, userId: Option<int>, generated: Uuid)
    requires u in s && WellFormed(Only(s, s[u].contentId)) && FreshFor(s, generated)
    requires s[u].isLatest && IsValidUuid(u)
    ensures var e := UpdateMainContent(s, u, patch, userId, generated);
      && e.result.Ok?
      && GetMainContentByUuid(e.store, generated) == Ok(e.result.value)
      && GetMainContentByUuid(e.store, u).value.nextUuid == Some(generated)
      && (forall l :: IsLatestOf(e.store, l, s[u].contentId) ==> l == generated)
      && WellFormed(Only(e.store, s[u].contentId))
      && Ends(e.store, generated, true)
      && |Walk(e.store, generated, true)| == s[u].version + 1
  {
    var cid := s[u].contentId;
    var e := UpdateMainContent(s, u, patch, userId, generated);
    UpdatePreservesChain(s, cid, u, patch, userId, generated);
    var o := Only(e.store, cid);
    assert generated in o;
    forall l | IsLatestOf(e.store, l, cid)
      ensures l == generated
    {
      assert l in o;
      assert IsLatestOf(o, generated, o[l].contentId) && IsLatestOf(o, l, o[generated].contentId);
    }
    WalkBackLength(o, generated);
    ChainWalk(e.store, cid, generated, true);
  }

  /** A create adds at most one row, to its own content: every other content's rows stay as they were. */
  lemma CreateTouchesOneChain(
    s: Store, contents: Contents, req: CreateRequest, userId: Option<int>, generated: Uuid, cid: Option<int>)
    requires FreshFor(s, generated) && cid != req.contentId
    ensures Only(CreateMainContent(s, contents, req, userId, generated).store, cid) == Only(s, cid)
  {
    var e := CreateMainContent(s, contents, req, userId, generated);
    if e.result.Ok? {
      OnlyAfterOtherWrite(s, e.result.value, cid);
    }
  }

  /**
   * A create keeps a well-formed chain well formed, whatever the other
   * contents hold, provided that when it creates for this very content the
   * content has no records yet and the caller's `prevUuid` does not
   * resolve; `createMainContent` checks neither.
   */
  lemma CreatePreservesChain(
    s: Store, contents: Contents, req: CreateRequest, userId: Option<int>, generated: Uuid, cid: Option<int>)
    requires WellFormed(Only(s, cid)) && FreshFor(s, generated)
    requires cid == req.contentId ==> HasNoRecords(s, cid) && !PrevResolves(s, req.prevUuid)
    ensures WellFormed(Only(CreateMainContent(s, contents, req, userId, generated).store, cid))
  {
    var e := CreateMainContent(s, contents, req, userId, generated);
    if cid != req.contentId {
      CreateTouchesOneChain(s, contents, req, userId, generated, cid);
    } else if e.result.Ok? {
      var r := e.result.value;
      var empty: Store := map[];
      var one: Store := map[r.uuid := r];
      assert Only(e.store, cid) == one;
      EmptyIsWellFormed();
      assert Started(empty, one, r);
      StartedWellFormed(empty, one, r);
    } else {
      assert e.store == s;
    }
  }
}

=== FILE: records.dfy ===
/**
 * The `main_contents` table: one immutable version record per row, keyed
 * by its unique `uuid`, and the two writes the service performs on it
 * (inserting a record, and retiring the current latest record), each
 * with the Sequelize validation that guards it.
 */
module Records {
  import opened Base
  import opened UuidFormat
  import opened ContentBody

  type Uuid = string

  /** One version of a main content. */
  datatype Record = Record(
    uuid: Uuid,
    title: string,              // NOT NULL
    content: Raw,               // the raw column behind the `content` accessors
    image: Option<string>,
    contentId: Option<int>,     // the parent content; nullable
    prevUuid: Option<Uuid>,
    nextUuid: Option<Uuid>,
    version: int,
    isLatest: bool,
    userId: Option<int>)

  /** The unique `uuid` column: each row is found under its own uuid. */
  predicate Keyed(m: map<Uuid, Record>) {
    forall u :: u in m ==> m[u].uuid == u
  }

  type Store = m: map<Uuid, Record> | Keyed(m) witness map[]

  /** A parent row of the `contents` table, as far as main contents use it. */
  datatype Content = Content(title: Option<string>, image: Option<string>)

  type Contents = map<int, Content>

  /** The table after an operation, and what the operation returned. */
  datatype Effect<T> = Effect(store: Store, result: Result<T>)

  /**
   * `MainContents.create`: the pointer validators run on the new row, then
   * the database refuses a uuid that is already taken. Nothing is written
   * unless every check passes.
   */
  function Insert(s: Store, rec: Record): (e: Effect<Record>)
    ensures e.result.Ok? <==>
      && (rec.prevUuid.None? || IsValidUuid(rec.prevUuid.value))
      && (rec.nextUuid.None? || IsValidUuid(rec.nextUuid.value))
      && rec.uuid !in s
    ensures e.result.Ok? ==> e.result.value == rec && e.store == s[rec.uuid := rec]
    ensures e.result.Ok? ==> e.store.Keys == s.Keys + {rec.uuid}
    ensures e.result.Err? ==> e.store == s
  {
    match ValidatePointer(PrevUuidField, rec.prevUuid)
    case Err(err) => Effect(s, Err(err))
    case Ok(_) =>
      match ValidatePointer(NextUuidField, rec.nextUuid)
      case Err(err) => Effect(s, Err(err))
      case Ok(_) =>
        if rec.uuid in s then Effect(s, Err(UniqueViolation))
        else Effect(s[rec.uuid := rec], Ok(rec))
  }

  /**
   * `currentVersion.update({ isLatest: false, nextUuid })`: only the two
   * changed fields are validated and written; every other field of the
   * record, and every other record, stays as it was.
   */
  function Retire(s: Store, u: Uuid, next: Uuid): (e: Effect<Record>)
    requires u in s
    ensures e.result.Ok? <==> IsValidUuid(next)
    ensures e.result.Ok? ==> e.result.value == s[u].(isLatest := false, nextUuid := Some(next))
    ensures e.result.Ok? ==> e.store.Keys == s.Keys && e.store[u] == e.result.value
    ensures e.result.Ok? ==> e.store == s[u := e.result.value]
    ensures e.result.Ok? ==> forall k :: k in s && k != u ==> e.store[k] == s[k]
    ensures e.result.Err? ==> e.store == s
  {
    match ValidatePointer(NextUuidField, Some(next))
    case Err(err) => Effect(s, Err(err))
    case Ok(_) =>
      var retired := s[u].(isLatest := false, nextUuid := Some(next));
      Effect(s[u := retired], Ok(retired))
  }
}

=== FILE: service.dfy ===
/**
 * The main-content service: creating the first version of a content,
 * appending a new version, and the four read operations. Writes return
 * the table they leave behind; reads only return values.
 *
 * Identifiers that the service draws from `uuidv4()` arrive as the
 * parameter `generated`, which is not yet in the table and has the shape
 * every version-4 uuid has.
 */
module MainContents {
  import opened Base
  import opened UuidFormat
  import opened ContentBody
  import opened Records

  /** The body of a create request; absent JSON fields are `None`/`Undefined`. */
  datatype CreateRequest = CreateRequest(
    contentId: Option<int>,
    title: Option<string>,
    content: JsValue,
    image: Option<string>,
    uuid: Option<string>,
    prevUuid: Option<string>)

  /** The body of an update request. */
  datatype Patch = Patch(title: Option<string>, content: JsValue, image: Option<string>)

  /** What `uuidv4()` hands out: an unused identifier of the accepted shape. */
  predicate FreshFor(s: Store, u: Uuid) {
    u !in s && IsValidUuid(u)
  }

  /**
   * The caller's `prevUuid` is kept only when it is truthy, is not one of
   * the strings "null" and "undefined", and names an existing record.
   */
  predicate PrevResolves(s: Store, given: Option<string>) {
    && TruthyText(given)
    && given.value != "null" && given.value != "undefined"
    && given.value in s
  }

  function ResolvePrev(s: Store, given: Option<string>): Option<Uuid> {
    if PrevResolves(s, given) then given else None
  }

  /**
   * `contentData.uuid || content.uuid || uuidv4()`. The `contents` table
   * has no uuid column, so the middle alternative is always undefined.
   */
  function ResolveUuid(given: Option<string>, generated: Uuid): Uuid {
    if TruthyText(given) then given.value else generated
  }

  /**
   * `createMainContent`: insert version 1 of a content. The content must
   * be named and exist; the title and image fall back to the parent
   * content's; an unresolvable `prevUuid` is dropped rather than refused.
   * Nothing here looks at records the content may already have.
   */
  function CreateMainContent(s: Store, contents: Contents, req: CreateRequest, userId: Option<int>, generated: Uuid)
    : (e: Effect<Record>)
    requires FreshFor(s, generated)
    ensures e.result.Err? ==> e.store == s
    ensures !TruthyId(req.contentId) ==> e.result == Err(ContentIdRequired)
    ensures TruthyId(req.contentId) && req.contentId.value !in contents ==> e.result == Err(ContentNotFound)
    ensures e.result.Ok? <==>
      && TruthyId(req.contentId) && req.contentId.value in contents
      && OrElse(req.title, contents[req.contentId.value].title).Some?
      && (PrevResolves(s, req.prevUuid) ==> IsValidUuid(req.prevUuid.value))
      && ResolveUuid(req.uuid, generated) !in s
    ensures e.result.Ok? ==>
      var r := e.result.value;
      var parent := contents[req.contentId.value];
      && r.version == 1 && r.isLatest && r.nextUuid.None?
      && r.contentId == req.contentId && r.userId == userId
      && (TruthyText(req.uuid) ==> r.uuid == req.uuid.value)
      && (!TruthyText(req.uuid) ==> r.uuid == generated)
      && Some(r.title) == (if TruthyText(req.title) then req.title else parent.title)
      && r.image == (if TruthyText(req.image) then req.image else parent.image)
      && r.content == SetContent(req.content) && SetterShaped(r.content)
      && (r.prevUuid.Some? <==> PrevResolves(s, req.prevUuid))
      && (r.prevUuid.Some? ==> r.prevUuid == req.prevUuid)
      && r.uuid !in s && e.store == s[r.uuid := r]
  {
    if !TruthyId(req.contentId) then Effect(s, Err(ContentIdRequired))
    else if req.contentId.value !in contents then Effect(s, Err(ContentNotFound))
    else
      var parent := contents[req.contentId.value];
      var title := OrElse(req.title, parent.title);
      SetContentIsSetterShaped(req.content);
      if title.None? then Effect(s, Err(NotNullViolation(TitleField)))
      else
        Insert(s, Record(
          uuid := ResolveUuid(req.uuid, generated),
          title := title.value,
          content := SetContent(req.content),
          image := OrElse(req.image, parent.image),
          contentId := req.contentId,
          prevUuid := ResolvePrev(s, req.prevUuid),
          nextUuid := None,
          version := 1,
          isLatest := true,
          userId := userId))
  }

  /** The record `updateMainContent` appends after `current`. */
  function Successor(current: Record, patch: Patch, userId: Option<int>, generated: Uuid): Record {
    Record(
      uuid := generated,
      title := OrElse(patch.title, Some(current.title)).value,
      content := SetContent(if Truthy(patch.content) then patch.content else GetContent(current.content)),
      image := OrElse(patch.image, current.image),
      contentId := current.contentId,
      prevUuid := Some(current.uuid),
      nextUuid := None,
      version := current.version + 1,
      isLatest := true,
      userId := userId)
  }

  /**
   * `updateMainContent`: append a new version after the latest record `u`.
   * Retiring `u` and inserting its successor form one transaction: if the
   * insert fails, the retirement is rolled back and the table is returned
   * as it was.
   *
   * The lookup of the current record happens before the transaction
   * opens, so two concurrent updates of the same record can both pass it;
   * this sequential model does not represent that race.
   */
  function UpdateMainContent(s: Store, u: Uuid, patch: Patch, userId: Option<int>, generated: Uuid)
    : (e: Effect<Record>)
    requires FreshFor(s, generated)
    ensures e.result.Err? ==> e.store == s
    ensures !(u in s && s[u].isLatest) ==> e.result == Err(NotFoundOrNotLatest)
    ensures e.result.Ok? <==> u in s && s[u].isLatest && IsValidUuid(u)
    ensures e.result.Ok? ==>
      var current := s[u];
      var r := e.result.value;
      && r.uuid == generated && r.version == current.version + 1
      && r.prevUuid == Some(u) && r.nextUuid.None? && r.isLatest
      && r.contentId == current.contentId && r.userId == userId
      && r.title == (if TruthyText(patch.title) then patch.title.value else current.title)
      && r.image == (if TruthyText(patch.image) then patch.image else current.image)
      && (Truthy(patch.content) ==> GetContent(r.content) == patch.content)
      && (!Truthy(patch.content) && SetterShaped(current.content) ==>
            GetContent(r.content) == GetContent(current.content))
      && SetterShaped(r.content)
      && e.store.Keys == s.Keys + {generated}
      && e.store[u] == current.(isLatest := false, nextUuid := Some(generated))
      && e.store[generated] == r
      && (forall k :: k in s && k != u ==> e.store[k] == s[k])
      && e.store == s[u := e.store[u]][generated := r]
  {
    if !(u in s && s[u].isLatest) then Effect(s, Err(NotFoundOrNotLatest))
    else
      var current := s[u];
      SetThenGet(patch.content);
      GetSetStable(current.content);
      SetContentIsSetterShaped(if Truthy(patch.content) then patch.content else GetContent(current.content));
      var retired := Retire(s, u, generated);
      // `generated` has the shape of a `uuidv4()` value, which the
      // `nextUuid` validator always accepts.
      if retired.result.Err? then assert false; Effect(s, Err(InvalidUuidFormat(NextUuidField)))
      else
        var inserted := Insert(retired.store, Successor(current, patch, userId, generated));
        if inserted.result.Err? then Effect(s, Err(inserted.result.error))
        else inserted
  }

  /** `getMainContentByUuid`. */
  function GetMainContentByUuid(s: Store, u: Uuid): (r: Result<Record>)
    ensures r.Ok? <==> u in s
    ensures r.Ok? ==> r.value.uuid == u && r.value == s[u]
    ensures r.Err? ==> r.error == MainContentNotFound
  {
    if u in s then Ok(s[u]) else Err(MainContentNotFound)
  }

  /**
   * `getLatestMainContentByContentId`: some record of the content that is
   * flagged latest. Which one, if several are, is up to the database.
   */
  method GetLatestMainContentByContentId(s: Store, cid: int) returns (r: Result<Record>)
    ensures r.Ok? ==> r.value.uuid in s && s[r.value.uuid] == r.value
    ensures r.Ok? ==> r.value.contentId == Some(cid) && r.value.isLatest
    ensures r.Err? <==> forall u :: u in s ==> !(s[u].contentId == Some(cid) && s[u].isLatest)
    ensures r.Err? ==> r.error == NoLatestForContent
  {
    if exists u :: u in s && s[u].contentId == Some(cid) && s[u].isLatest {
      var u :| u in s && s[u].contentId == Some(cid) && s[u].isLatest;
      r := Ok(s[u]);
    } else {
      r := Err(NoLatestForContent);
    }
  }

  /** A key of `keys` whose record has the highest version. */
  method Newest(s: Store, keys: set<Uuid>) returns (u: Uuid)
    requires keys != {} && keys <= s.Keys
    ensures u in keys
    ensures forall k :: k in keys ==> s[k].version <= s[u].version
  {
    u :| u in keys;
    var rest := keys - {u};
    while rest != {}
      invariant rest <= keys && u in keys
      invariant forall k :: k in keys && k !in rest ==> s[k].version <= s[u].version
      decreases rest
    {
      var k :| k in rest;
      if s[u].version < s[k].version {
        u := k;
      }
      rest := rest - {k};
    }
  }

  /**
   * Progress of the all-versions listing: `rows` holds, newest first and
   * each once, the records of the content that are no longer `pending`,
   * and none of them is older than a pending one.
   */
  predicate Listing(s: Store, cid: int, rows: seq<Record>, pending: set<Uuid>) {
    && (forall u :: u in pending ==> u in s && s[u].contentId == Some(cid))
    && (forall i :: 0 <= i < |rows| ==>
          rows[i].uuid in s && s[rows[i].uuid] == rows[i] && rows[i].contentId == Some(cid)
          && rows[i].uuid !in pending)
    && (forall u :: u in s && s[u].contentId == Some(cid) ==> u in pending || s[u] in rows)
    && (forall i, j :: 0 <= i < j < |rows| ==> rows[i].uuid != rows[j].uuid)
    && (forall i, j :: 0 <= i < j < |rows| ==> rows[j].version <= rows[i].version)
    && (forall i, u :: 0 <= i < |rows| && u in pending ==> s[u].version <= rows[i].version)
  }

  lemma ListingStarts(s: Store, cid: int)
    ensures Listing(s, cid, [], set u | u in s && s[u].contentId == Some(cid))
  {
  }

  lemma ListingStep(s: Store, cid: int, rows: seq<Record>, pending: set<Uuid>, u: Uuid)
    requires Listing(s, cid, rows, pending)
    requires u in pending && forall k :: k in pending ==> s[k].version <= s[u].version
    ensures Listing(s, cid, rows + [s[u]], pending - {u})
  {
    var rows' := rows + [s[u]];
    assert rows'[|rows|] == s[u];
    forall v | v in s && s[v].contentId == Some(cid)
      ensures v in pending - {u} || s[v] in rows'
    {
      if v == u {
        assert rows'[|rows|] == s[v];
      } else if v !in pending {
        var i :| 0 <= i < |rows| && rows[i] == s[v];
        assert rows'[i] == s[v];
      }
    }
  }

  /**
   * `getAllVersionsByContentId`: every record of the content, each once,
   * highest version first (records of equal version in the order the
   * database happens to return them); empty when there are none.
   */
  method GetAllVersionsByContentId(s: Store, cid: int) returns (rows: seq<Record>)
    ensures forall i :: 0 <= i < |rows| ==>
      rows[i].uuid in s && s[rows[i].uuid] == rows[i] && rows[i].contentId == Some(cid)
    ensures forall u :: u in s && s[u].contentId == Some(cid) ==> s[u] in rows
    ensures forall i, j :: 0 <= i < j < |rows| ==> rows[i].uuid != rows[j].uuid
    ensures forall i, j :: 0 <= i < j < |rows| ==> rows[j].version <= rows[i].version
  {
    var pending := set u | u in s && s[u].contentId == Some(cid);
    rows := [];
    ListingStarts(s, cid);
    while pending != {}
      invariant Listing(s, cid, rows, pending)
      decreases pending
    {
      var u := Newest(s, pending);
      ListingStep(s, cid, rows, pending, u);
      rows := rows + [s[u]];
      pending := pending - {u};
    }
  }

  // ---------------------------------------------------------------------
  // getVersionHistory
  // ---------------------------------------------------------------------

  /**
   * 'prev' is the default of an omitted (`undefined`) direction; any other
   * direction goes forward. `None` stands for the omitted argument only.
   */
  predicate FollowsPrev(direction: Option<string>) {
    direction.None? || direction.value == "prev"
  }

  /** The pointer the walk follows out of `r`. */
  function Link(r: Record, back: bool): Option<Uuid> {
    if back then r.prevUuid else r.nextUuid
  }

  /** The walk goes on past `r`: the pointer is truthy and resolves. */
  predicate Continues(s: Store, r: Record, back: bool) {
    TruthyText(Link(r, back)) && Link(r, back).value in s
  }

  /**
   * Versions strictly decrease along every resolving `prevUuid` and
   * strictly increase along every resolving `nextUuid`. Every well-formed
   * table is ordered; tables that creates with a resolving `prevUuid`
   * build need not be.
   */
  predicate Ordered(s: Store) {
    forall u, back :: u in s ==> StepsAway(s, s[u], back)
  }

  /** `b` lies further along the walk than `a`. */
  predicate Beyond(a: Record, b: Record, back: bool) {
    if back then b.version < a.version else a.version < b.version
  }

  /** Following `r`'s pointer, when the walk goes on, reaches a record beyond `r`. */
  predicate StepsAway(s: Store, r: Record, back: bool) {
    Continues(s, r, back) ==> Beyond(r, s[Link(r, back).value], back)
  }

  /** The records an ordered walk may still visit after a record of version `v`. */
  ghost function Ahead(s: Store, v: int, back: bool): set<Uuid> {
    if back then set k | k in s && s[k].version < v
    else set k | k in s && s[k].version > v
  }

  /**
   * The loop of `getVersionHistory` from the record `u`, allowed at most
   * `fuel` steps: each record reached is recorded, and the loop stops at a
   * falsy or unresolvable pointer. `None` when it would need more steps.
   */
  function WalkWithin(s: Store, u: Uuid, back: bool, fuel: nat): (o: Option<seq<Record>>)
    requires u in s
    ensures o.Some? ==> |o.value| >= 1 && o.value[0] == s[u] && |o.value| <= fuel + 1
    ensures o.Some? && |o.value| == 1 ==> !Continues(s, s[u], back)
    decreases fuel
  {
    if !Continues(s, s[u], back) then Some([s[u]])
    else if fuel == 0 then None
    else
      match WalkWithin(s, Link(s[u], back).value, back, fuel - 1)
      case None => None
      case Some(rest) => Some([s[u]] + rest)
  }

  /**
   * The walk from `u` ends: it stops within as many steps as the table
   * has records. `WalkEndsWithinTable` shows that a walk that stops at
   * all stops this soon, so this excludes exactly the walks the source
   * would repeat forever.
   */
  predicate Ends(s: Store, u: Uuid, back: bool) {
    u in s && WalkWithin(s, u, back, |s|).Some?
  }

  /** Every walk on the table ends. */
  predicate WalksEnd(s: Store) {
    forall u, back :: u in s ==> Ends(s, u, back)
  }

  /** A walk that has ended is not changed by more fuel. */
  lemma {:induction false} MoreFuel(s: Store, u: Uuid, back: bool, f: nat, g: nat)
    requires u in s && f <= g && WalkWithin(s, u, back, f).Some?
    ensures WalkWithin(s, u, back, g) == WalkWithin(s, u, back, f)
    decreases f
  {
    if Continues(s, s[u], back) {
      MoreFuel(s, Link(s[u], back).value, back, f - 1, g - 1);
    }
  }

  /** Walks that have ended from the same record are the same list. */
  lemma Deterministic(s: Store, a: Uuid, b: Uuid, back: bool, f: nat, g: nat)
    requires a in s && b in s
    requires WalkWithin(s, a, back, f).Some? && WalkWithin(s, b, back, g).Some?
    ensures a == b ==> WalkWithin(s, a, back, f) == WalkWithin(s, b, back, g)
  {
    if a == b {
      if f <= g {
        MoreFuel(s, a, back, f, g);
      } else {
        MoreFuel(s, a, back, g, f);
      }
    }
  }

  /** A walk of more than one entry is its start followed by the walk from the next record. */
  lemma WalkUnfold(s: Store, u: Uuid, back: bool, f: nat)
    requires u in s && WalkWithin(s, u, back, f).Some? && |WalkWithin(s, u, back, f).value| > 1
    ensures Continues(s, s[u], back) && f >= 1
    ensures WalkWithin(s, Link(s[u], back).value, back, f - 1).Some?
    ensures WalkWithin(s, u, back, f).value ==
      [s[u]] + WalkWithin(s, Link(s[u], back).value, back, f - 1).value
  {
  }

  lemma AfterHead(x: Record, rest: seq<Record>, i: nat)
    requires 0 < i <= |rest|
    ensures ([x] + rest)[i] == rest[i - 1] && ([x] + rest)[i..] == rest[i - 1..]
  {
  }

  /** What the walk lists from its `i`-th entry on is the walk from that entry. */
  lemma {:induction false} WalkSuffix(s: Store, u: Uuid, back: bool, f: nat, i: nat)
    requires u in s && WalkWithin(s, u, back, f).Some? && i < |WalkWithin(s, u, back, f).value|
    ensures i <= f
    ensures var h := WalkWithin(s, u, back, f).value;
      h[i].uuid in s && WalkWithin(s, h[i].uuid, back, f - i) == Some(h[i..])
    decreases i
  {
    var h := WalkWithin(s, u, back, f).value;
    if i == 0 {
      assert h[0] == s[u] && s[u].uuid == u;
      assert h[0..] == h;
    } else {
      WalkUnfold(s, u, back, f);
      var n := Link(s[u], back).value;
      var rest := WalkWithin(s, n, back, f - 1).value;
      assert h == [s[u]] + rest;
      WalkSuffix(s, n, back, f - 1, i - 1);
      AfterHead(s[u], rest, i);
      assert f - 1 - (i - 1) == f - i;
    }
  }

  /**
   * Each entry of a walk that ends is a record of the table, each next
   * entry is the record the followed pointer names, and the last entry's
   * pointer is falsy or does not resolve.
   */
  lemma {:induction false} WalkShape(s: Store, u: Uuid, back: bool, f: nat)
    requires u in s && WalkWithin(s, u, back, f).Some?
    ensures var h := WalkWithin(s, u, back, f).value;
      && (forall i :: 0 <= i < |h| ==> h[i].uuid in s && s[h[i].uuid] == h[i])
      && (forall i :: 0 <= i < |h| - 1 ==>
            Continues(s, h[i], back) && h[i + 1] == s[Link(h[i], back).value])
      && !Continues(s, h[|h| - 1], back)
    decreases f
  {
    var h := WalkWithin(s, u, back, f).value;
    if |h| > 1 {
      WalkUnfold(s, u, back, f);
      var n := Link(s[u], back).value;
      var rest := WalkWithin(s, n, back, f - 1).value;
      WalkShape(s, n, back, f - 1);
      forall i | 0 <= i < |h|
        ensures h[i].uuid in s && s[h[i].uuid] == h[i]
      {
        if i > 0 {
          AfterHead(s[u], rest, i);
        }
      }
      forall i | 0 <= i < |h| - 1
        ensures Continues(s, h[i], back) && h[i + 1] == s[Link(h[i], back).value]
      {
        AfterHead(s[u], rest, i + 1);
        if i > 0 {
          AfterHead(s[u], rest, i);
        }
      }
      AfterHead(s[u], rest, |h| - 1);
    }
  }

  /** On an ordered table each entry of a walk lies beyond every earlier one. */
  lemma {:induction false} WalkMovesAway(s: Store, u: Uuid, back: bool, f: nat)
    requires u in s && WalkWithin(s, u, back, f).Some?
    ensures var h := WalkWithin(s, u, back, f).value;
      Ordered(s) ==> forall i, j :: 0 <= i < j < |h| ==> Beyond(h[i], h[j], back)
    decreases f
  {
    var h := WalkWithin(s, u, back, f).value;
    if Ordered(s) && |h| > 1 {
      WalkUnfold(s, u, back, f);
      var n := Link(s[u], back).value;
      WalkMovesAway(s, n, back, f - 1);
      assert StepsAway(s, s[u], back);
      assert Beyond(h[0], h[1], back);
      forall i, j | 0 <= i < j < |h|
        ensures Beyond(h[i], h[j], back)
      {
        if i > 0 {
          assert h[i] == h[1..][i - 1] && h[j] == h[1..][j - 1];
        } else if j > 1 {
          assert h[1] == h[1..][0] && h[j] == h[1..][j - 1];
        }
      }
    }
  }

  /** A walk that ends never lists a record twice. */
  lemma WalkDistinct(s: Store, u: Uuid, back: bool, f: nat)
    requires u in s && WalkWithin(s, u, back, f).Some?
    ensures var h := WalkWithin(s, u, back, f).value;
      forall i, j :: 0 <= i < j < |h| ==> h[i].uuid != h[j].uuid
  {
    var h := WalkWithin(s, u, back, f).value;
    WalkShape(s, u, back, f);
    forall i, j | 0 <= i < j < |h|
      ensures h[i].uuid != h[j].uuid
    {
      WalkSuffix(s, u, back, f, i);
      WalkSuffix(s, u, back, f, j);
      Deterministic(s, h[i].uuid, h[j].uuid, back, f - i, f - j);
    }
  }

  /** A list of records with distinct uuids drawn from `keys` is no longer than `keys`. */
  lemma {:induction false} DistinctWithin(h: seq<Record>, keys: set<Uuid>)
    requires forall i :: 0 <= i < |h| ==> h[i].uuid in keys
    requires forall i, j :: 0 <= i < j < |h| ==> h[i].uuid != h[j].uuid
    ensures |h| <= |keys|
    decreases |h|
  {
    if h != [] {
      var rest := keys - {h[0].uuid};
      forall i | 0 <= i < |h[1..]|
        ensures h[1..][i].uuid in rest
      {
        assert h[1..][i] == h[i + 1];
      }
      DistinctWithin(h[1..], rest);
    }
  }

  /** A walk that ends lists `n` records using exactly `n - 1` steps. */
  lemma {:induction false} LeastFuel(s: Store, u: Uuid, back: bool, f: nat)
    requires u in s && WalkWithin(s, u, back, f).Some?
    ensures WalkWithin(s, u, back, |WalkWithin(s, u, back, f).value| - 1) == WalkWithin(s, u, back, f)
    decreases f
  {
    if Continues(s, s[u], back) {
      LeastFuel(s, Link(s[u], back).value, back, f - 1);
    }
  }

  /**
   * A walk that stops with any fuel at all stops within as many steps as
   * the table has records, with the same list.
   */
  lemma WalkEndsWithinTable(s: Store, u: Uuid, back: bool, f: nat)
    requires u in s
    ensures WalkWithin(s, u, back, f).Some? ==>
      Ends(s, u, back) && WalkWithin(s, u, back, |s|) == WalkWithin(s, u, back, f)
  {
    if WalkWithin(s, u, back, f).Some? {
      var h := WalkWithin(s, u, back, f).value;
      WalkDistinct(s, u, back, f);
      WalkShape(s, u, back, f);
      DistinctWithin(h, s.Keys);
      LeastFuel(s, u, back, f);
      MoreFuel(s, u, back, |h| - 1, |s|);
    }
  }

  lemma SmallerSubset(a: set<Uuid>, b: set<Uuid>, x: Uuid)
    requires a <= b && x in b && x !in a
    ensures |a| < |b|
  {
    assert b == a + (b - a) && a * (b - a) == {};
    assert x in b - a;
  }

  lemma {:induction false} OrderedWalkEnds(s: Store, u: Uuid, back: bool, f: nat)
    requires Ordered(s) && u in s && |Ahead(s, s[u].version, back)| <= f
    ensures WalkWithin(s, u, back, f).Some?
    decreases f
  {
    if Continues(s, s[u], back) {
      var n := Link(s[u], back).value;
      assert StepsAway(s, s[u], back);
      assert n in Ahead(s, s[u].version, back) && n !in Ahead(s, s[n].version, back);
      assert Ahead(s, s[n].version, back) <= Ahead(s, s[u].version, back);
      SmallerSubset(Ahead(s, s[n].version, back), Ahead(s, s[u].version, back), n);
      OrderedWalkEnds(s, n, back, f - 1);
    }
  }

  /** On an ordered table every walk ends. */
  lemma OrderedWalksEnd(s: Store)
    requires Ordered(s)
    ensures WalksEnd(s)
  {
    forall u, back | u in s
      ensures Ends(s, u, back)
    {
      SmallerSubset(Ahead(s, s[u].version, back), s.Keys + {u}, u);
      assert Ahead(s, s[u].version, back) <= s.Keys;
      OrderedWalkEnds(s, u, back, |s|);
    }
  }

  /**
   * The loop of `getVersionHistory` from the record `u`, on a walk that
   * ends: each record reached once, in pointer order, up to the first
   * falsy or unresolvable pointer.
   */
  function Walk(s: Store, u: Uuid, back: bool): (h: seq<Record>)
    requires Ends(s, u, back)
    ensures |h| >= 1 && h[0] == s[u]
    ensures forall i :: 0 <= i < |h| ==> h[i].uuid in s && s[h[i].uuid] == h[i]
    ensures forall i :: 0 <= i < |h| - 1 ==>
      Continues(s, h[i], back) && h[i + 1] == s[Link(h[i], back).value]
    ensures !Continues(s, h[|h| - 1], back)
    ensures forall i, j :: 0 <= i < j < |h| ==> h[i].uuid != h[j].uuid
    ensures Ordered(s) ==> forall i, j :: 0 <= i < j < |h| ==> Beyond(h[i], h[j], back)
  {
    WalkDistinct(s, u, back, |s|);
    WalkShape(s, u, back, |s|);
    WalkMovesAway(s, u, back, |s|);
    WalkWithin(s, u, back, |s|).value
  }

  /**
   * `getVersionHistory`: the start record followed by the records reached
   * through `prevUuid` (direction 'prev', also when the argument is
   * omitted) or `nextUuid` (any other direction); fails only when the
   * start record is missing. It stops at the first falsy or unresolvable
   * pointer and lists no record twice.
   */
  function GetVersionHistory(s: Store, start: Uuid, direction: Option<string>): (r: Result<seq<Record>>)
    requires start in s ==> Ends(s, start, FollowsPrev(direction))
    ensures r.Err? <==> start !in s
    ensures r.Err? ==> r.error == MainContentNotFound
    ensures r.Ok? ==> |r.value| >= 1 && r.value[0] == s[start]
    ensures r.Ok? ==> forall i :: 0 <= i < |r.value| - 1 ==>
      var link := if FollowsPrev(direction) then r.value[i].prevUuid else r.value[i].nextUuid;
      TruthyText(link) && link.value in s && r.value[i + 1] == s[link.value]
    ensures r.Ok? ==>
      var last := r.value[|r.value| - 1];
      var link := if FollowsPrev(direction) then last.prevUuid else last.nextUuid;
      !(TruthyText(link) && link.value in s)
    ensures r.Ok? ==> forall i, j :: 0 <= i < j < |r.value| ==> r.value[i].uuid != r.value[j].uuid
    ensures r.Ok? && Ordered(s) && FollowsPrev(direction) ==>
      forall i, j :: 0 <= i < j < |r.value| ==> r.value[j].version < r.value[i].version
    ensures r.Ok? && Ordered(s) && !FollowsPrev(direction) ==>
      forall i, j :: 0 <= i < j < |r.value| ==> r.value[i].version < r.value[j].version
  {
    if start !in s then Err(MainContentNotFound)
    else Ok(Walk(s, start, FollowsPrev(direction)))
  }
}

=== FILE: uuid.dfy ===
/**
 * The `isValidUUID` validator attached to `prevUuid` and `nextUuid`:
 * the 8-4-4-4-12 hexadecimal layout of RFC 4122, with the version
 * nibble (section 4.1.3) restricted to 1-5 and the variant nibble
 * (section 4.1.1) restricted to 8, 9, a, b, compared case-insensitively.
 */
module UuidFormat {
  import opened Base

  predicate IsHex(c: char) {
    ('0' <= c <= '9') || ('a' <= c <= 'f') || ('A' <= c <= 'F')
  }

  /** First character of the third group: RFC 4122 versions 1 to 5. */
  predicate IsVersionDigit(c: char) {
    '1' <= c <= '5'
  }

  /** First character of the fourth group: the RFC 4122 variant, in either case. */
  predicate IsVariantDigit(c: char) {
    c == '8' || c == '9' || c == 'a' || c == 'b' || c == 'A' || c == 'B'
  }

  predicate HexRun(t: string) {
    forall i :: 0 <= i < |t| ==> IsHex(t[i])
  }

  /**
   * The accepted shape, group by group: hex{8} - hex{4} - version hex{3}
   * - variant hex{3} - hex{12}, and nothing before or after.
   */
  predicate IsValidUuid(s: string) {
    && |s| == 36
    && HexRun(s[0..8]) && s[8] == '-'
    && HexRun(s[9..13]) && s[13] == '-'
    && IsVersionDigit(s[14]) && HexRun(s[15..18]) && s[18] == '-'
    && IsVariantDigit(s[19]) && HexRun(s[20..23]) && s[23] == '-'
    && HexRun(s[24..36])
  }

  /**
   * The validator as Sequelize runs it on one pointer field: a null or
   * undefined value is accepted without looking at it, anything else must
   * have the UUID shape or the save fails naming the field.
   */
  function ValidatePointer(field: Field, v: Option<string>): (r: Result<()>)
    ensures r.Ok? <==> (v.None? || IsValidUuid(v.value))
    ensures v.None? ==> r.Ok?
    ensures r.Err? ==> r.error == InvalidUuidFormat(field)
  {
    if v.None? || IsValidUuid(v.value) then Ok(()) else Err(InvalidUuidFormat(field))
  }

  /** `prevUuid` and `nextUuid` are held to the same acceptance rule. */
  lemma SameRuleForBothPointers(v: Option<string>)
    ensures ValidatePointer(PrevUuidField, v).Ok? <==> ValidatePointer(NextUuidField, v).Ok?
  {
  }

  // ---------------------------------------------------------------------
  // An independent reading of the same validator: the regular expression
  // as a list of (character class, repeat count) pieces, matched anchored
  // at both ends, with the `i` flag folding letters to lower case.
  // ---------------------------------------------------------------------

  /** The character classes that occur in the pattern, written lower-case. */
  datatype CharClass = HexClass | VersionClass | VariantClass | Hyphen

  datatype Piece = Piece(cls: CharClass, count: nat)

  /** `[0-9a-f]{8}-[0-9a-f]{4}-[1-5][0-9a-f]{3}-[89ab][0-9a-f]{3}-[0-9a-f]{12}` */
  const UuidPattern: seq<Piece> := [
    Piece(HexClass, 8), Piece(Hyphen, 1),
    Piece(HexClass, 4), Piece(Hyphen, 1),
    Piece(VersionClass, 1), Piece(HexClass, 3), Piece(Hyphen, 1),
    Piece(VariantClass, 1), Piece(HexClass, 3), Piece(Hyphen, 1),
    Piece(HexClass, 12)
  ]

  /** Case folding as the `i` flag applies it to ASCII letters. */
  function Fold(c: char): char {
    if 'A' <= c <= 'Z' then (c as int - 'A' as int + 'a' as int) as char else c
  }

  function FoldAll(s: string): (r: string)
    ensures |r| == |s|
    ensures forall i :: 0 <= i < |s| ==> r[i] == Fold(s[i])
  {
    seq(|s|, i requires 0 <= i < |s| => Fold(s[i]))
  }

  /** Membership of an already folded character in a lower-case class. */
  predicate InClass(k: CharClass, c: char) {
    match k
    case HexClass => ('0' <= c <= '9') || ('a' <= c <= 'f')
    case VersionClass => '1' <= c <= '5'
    case VariantClass => c == '8' || c == '9' || c == 'a' || c == 'b'
    case Hyphen => c == '-'
  }

  predicate ClassRun(k: CharClass, t: string) {
    forall i :: 0 <= i < |t| ==> InClass(k, Fold(t[i]))
  }

  /** Anchored, case-insensitive match of the whole of `s` against the pieces `p`. */
  predicate Matches(p: seq<Piece>, s: string)
    decreases |p|
  {
    if p == [] then s == []
    else
      var n := p[0].count;
      n <= |s| && ClassRun(p[0].cls, s[..n]) && Matches(p[1..], s[n..])
  }

  lemma HexRunIsClassRun(t: string)
    ensures HexRun(t) <==> ClassRun(HexClass, t)
  {
  }

  /** One piece of the pattern consumed at offset `off` of the subject. */
  lemma Stage(p: seq<Piece>, s: string, k: nat, off: nat)
    requires k < |p| && off + p[k].count <= |s|
    ensures Matches(p[k..], s[off..]) <==>
      ClassRun(p[k].cls, s[off..off + p[k].count]) && Matches(p[k + 1..], s[off + p[k].count..])
  {
    var n := p[k].count;
    assert p[k..][0] == p[k] && p[k..][1..] == p[k + 1..];
    assert s[off..][..n] == s[off..off + n] && s[off..][n..] == s[off + n..];
  }

  lemma SingleChar(k: CharClass, s: string, i: nat)
    requires i < |s|
    ensures ClassRun(k, s[i..i + 1]) <==> InClass(k, Fold(s[i]))
  {
    assert s[i..i + 1][0] == s[i];
  }

  /** The pattern unrolled over a 36-character subject, a few pieces at a time. */
  lemma UnrolledHead(s: string)
    requires |s| == 36
    ensures Matches(UuidPattern, s) <==>
      ClassRun(HexClass, s[0..8]) && Matches(UuidPattern[1..], s[8..])
  {
    assert s[..8] == s[0..8];
  }

  lemma UnrolledEarly(s: string)
    requires |s| == 36
    ensures Matches(UuidPattern[1..], s[8..]) <==>
      && ClassRun(Hyphen, s[8..9])
      && ClassRun(HexClass, s[9..13]) && Matches(UuidPattern[3..], s[13..])
  {
    var p := UuidPattern;
    Stage(p, s, 1, 8);
    Stage(p, s, 2, 9);
  }

  lemma UnrolledMiddle(s: string)
    requires |s| == 36
    ensures Matches(UuidPattern[3..], s[13..]) <==>
      && ClassRun(Hyphen, s[13..14]) && ClassRun(VersionClass, s[14..15])
      && ClassRun(HexClass, s[15..18]) && Matches(UuidPattern[6..], s[18..])
  {
    var p := UuidPattern;
    Stage(p, s, 3, 13);
    Stage(p, s, 4, 14);
    Stage(p, s, 5, 15);
  }

  lemma UnrolledLate(s: string)
    requires |s| == 36
    ensures Matches(UuidPattern[6..], s[18..]) <==>
      && ClassRun(Hyphen, s[18..19]) && ClassRun(VariantClass, s[19..20])
      && ClassRun(HexClass, s[20..23]) && Matches(UuidPattern[9..], s[23..])
  {
    var p := UuidPattern;
    Stage(p, s, 6, 18);
    Stage(p, s, 7, 19);
    Stage(p, s, 8, 20);
  }

  lemma UnrolledTail(s: string)
    requires |s| == 36
    ensures Matches(UuidPattern[9..], s[23..]) <==>
      ClassRun(Hyphen, s[23..24]) && ClassRun(HexClass, s[24..36])
  {
    var p := UuidPattern;
    Stage(p, s, 9, 23);
    Stage(p, s, 10, 24);
    assert p[11..] == [] && s[36..] == [];
  }

  /** The unrolled pattern: each piece matched by its own slice of a 36-character subject. */
  predicate PiecewiseMatch(s: string)
    requires |s| == 36
  {
    && ClassRun(HexClass, s[0..8]) && ClassRun(Hyphen, s[8..9])
    && ClassRun(HexClass, s[9..13]) && ClassRun(Hyphen, s[13..14])
    && ClassRun(VersionClass, s[14..15]) && ClassRun(HexClass, s[15..18])
    && ClassRun(Hyphen, s[18..19]) && ClassRun(VariantClass, s[19..20])
    && ClassRun(HexClass, s[20..23]) && ClassRun(Hyphen, s[23..24])
    && ClassRun(HexClass, s[24..36])
  }

  lemma MatchesPiecewise(s: string)
    requires |s| == 36
    ensures Matches(UuidPattern, s) <==> PiecewiseMatch(s)
  {
    UnrolledHead(s);
    UnrolledEarly(s);
    UnrolledMiddle(s);
    UnrolledLate(s);
    UnrolledTail(s);
  }

  lemma PiecewiseIsValid(s: string)
    requires |s| == 36
    ensures PiecewiseMatch(s) <==> IsValidUuid(s)
  {
    SingleChar(Hyphen, s, 8);
    SingleChar(Hyphen, s, 13);
    SingleChar(VersionClass, s, 14);
    SingleChar(Hyphen, s, 18);
    SingleChar(VariantClass, s, 19);
    SingleChar(Hyphen, s, 23);
    HexRunIsClassRun(s[0..8]);
    HexRunIsClassRun(s[9..13]);
    HexRunIsClassRun(s[15..18]);
    HexRunIsClassRun(s[20..23]);
    HexRunIsClassRun(s[24..36]);
  }

  /**
   * The group-by-group definition accepts exactly the strings the regular
   * expression accepts.
   */
  lemma RegexAgrees(s: string)
    ensures Matches(UuidPattern, s) <==> IsValidUuid(s)
  {
    if |s| == 36 {
      MatchesPiecewise(s);
      PiecewiseIsValid(s);
    } else {
      MatchesLength(UuidPattern, s);
    }
  }

  function PatternLength(p: seq<Piece>): nat {
    if p == [] then 0 else p[0].count + PatternLength(p[1..])
  }

  lemma {:induction false} MatchesLength(p: seq<Piece>, s: string)
    ensures Matches(p, s) ==> |s| == PatternLength(p)
    decreases |p|
  {
    if p != [] && p[0].count <= |s| {
      MatchesLength(p[1..], s[p[0].count..]);
    }
  }

  /**
   * Matching with the `i` flag looks only at folded characters, so a
   * string and its lower-case form are accepted or rejected together.
   */
  lemma {:induction false} MatchesIgnoresCase(p: seq<Piece>, s: string)
    ensures Matches(p, s) <==> Matches(p, FoldAll(s))
    decreases |p|
  {
    if p != [] && p[0].count <= |s| {
      var n := p[0].count;
      var f := FoldAll(s);
      assert f[n..] == FoldAll(s[n..]);
      assert forall i :: 0 <= i < n ==> Fold(f[i]) == Fold(s[i]);
      MatchesIgnoresCase(p[1..], s[n..]);
    }
  }

  /** Upper-case hex digits are as good as lower-case ones. */
  lemma CaseInsensitive(s: string)
    ensures IsValidUuid(s) <==> IsValidUuid(FoldAll(s))
  {
    RegexAgrees(s);
    RegexAgrees(FoldAll(s));
    MatchesIgnoresCase(UuidPattern, s);
  }

  /** A third group starting with anything but 1-5 is rejected, whatever the rest. */
  lemma VersionNibbleRejected(s: string)
    requires |s| == 36 && !('1' <= s[14] <= '5')
    ensures !IsValidUuid(s)
    ensures ValidatePointer(PrevUuidField, Some(s)).Err?
  {
  }

  /** A fourth group starting with anything but 8, 9, a, b (either case) is rejected. */
  lemma VariantNibbleRejected(s: string)
    requires |s| == 36 && s[19] !in "89abAB"
    ensures !IsValidUuid(s)
    ensures ValidatePointer(NextUuidField, Some(s)).Err?
  {
  }
}
